=== FILE: README.md ===
# version-watcher, modelled in Dafny

version-watcher is a browser library that notices a new deployment of a web
application. A detector polls a version endpoint. It runs either inside a web
worker or, when workers are missing or fail, as a `VersionWatcher` on the
main thread. A wrapper chooses between the two, routes commands to the chosen
one and fans version changes out to the application's callbacks. Around it
sit four smaller pieces:

- a tab-presence registry that counts the open tabs of the origin through
  heartbeats on a shared channel;
- an in-process event bus;
- a registry of DOM listeners that can undo its registrations;
- two cross-tab broadcast adapters, one announcing versions and one asking
  every tab to refresh. Each uses a BroadcastChannel, localStorage `storage`
  events, or nothing.

This project models that state and the decisions made on it, one module per
source file:

| module | file | source |
|---|---|---|
| `Watcher` | version_watcher.dfy | src/core/version-watcher.js |
| `WatcherWorker` | version_watcher_worker.dfy | src/core/version-watcher.worker.js |
| `WatcherWrapper` | version_watcher_wrapper.dfy | src/core/version-watcher-wrapper.js |
| `TabPresence` | tab_manager.dfy | src/utils/tab-manager.js |
| `Dispatcher` | event_dispatcher.dfy | src/utils/event-dispatcher.js |
| `Listeners` | event_listener.dfy | src/utils/event-listener.js |
| `VersionSync` | version_broadcast.dfy | src/utils/version-broadcast.js |
| `RefreshSync` | refresh_broadcast.dfy | src/utils/refresh-broadcast.js |

Three shared modules support them:

- `JsValues` (js_values.dfy) models JavaScript values: truthiness, property
  reads, object spread, and the outcome of a version fetch.
- `Seqs` (seqs.dfy) models a JavaScript `Set` as a sequence without
  duplicates in insertion order. It also holds the filter that `delete` and
  `Array.prototype.filter` become.
- `Transport` (transport.dfy) holds the backend choice and the window `storage` listener shared by both
  broadcast adapters.

Objects whose fields the source updates are classes. Their methods state the
whole new state against the old one. Pure decisions are functions, proved
against reference definitions by lemmas.

Effects on the outside world are recorded in sequence-valued fields instead
of being performed:

- posted messages: `outbox`, `posted`, `sent`;
- callback runs: `calls`, `deliveries`, `invoked`;
- DOM calls: `dom`.

The outside world comes in as parameters:

- a fetch is a `Fetch` value: `Fetched(version, isTip)` or `Failed`;
- the clock is a `now: int` argument;
- a random tab id is an argument;
- a timer is an abstract handle, and a `running` set holds the live
  intervals.

Each asynchronous completion is one atomic step, together with the code that
runs after its `await`. The steps are:

- a fetch completing;
- the dynamic import of the fallback watcher settling;
- a timer tick.

Loading the fallback watcher and the settling of its first fetch are two
steps, so `destroy` can come between them.

Some behaviour of the code that the model keeps as it is:

- A tab is forgotten after 10000 ms without a message, checked with `now - lastSeen > 10000`.
- Construction of the tab registry announces only `presence`.
- Every message from another tab refreshes its last-seen time, `leave` included. `leave` carries no timestamp.
- The localStorage envelope is `{timestamp, version}`.
- Options are not validated. Construction accepts any value for any option.
- The worker posts the new version as `data.newVersion`, and the wrapper reads `data.version` (see Findings).

## Model

| member | source | states |
|---|---|---|
| Seqs.Add | src/core/version-watcher.js:114-115 | `Set.prototype.add`: the result holds exactly the old members plus the new one; the old order is kept as a prefix; re-adding a member leaves the set unchanged; distinctness is preserved |
| Seqs.RemoveAll | src/core/version-watcher.js:116 | `Set.prototype.delete` / `filter`: keeps exactly the members outside the removed set; never grows; distinctness is preserved |
| JsValues.Spread | src/core/version-watcher.js:28-33 | object spread: every key of either object; the later object wins where both have a key |
| Watcher.MergedOptions | src/core/version-watcher.js:27-33 | every user option survives unchanged; every other key is a default; `endpoint`, `interval` and `content` are always present |
| Watcher.ChangeEvent | src/core/version-watcher.js:93-96 | the event holds every option plus `newVersion`; options are copied unchanged, so an option named `newVersion` overrides the new version |
| Watcher.Calls | src/core/version-watcher.js:98 | `forEach` over the listeners: one call per listener, in iteration order, all with the same event and `isTip` |
| Watcher.EachListenerOnce | src/core/version-watcher.js:98 | over a set of listeners, each member is called exactly once and no one else is called |
| Watcher.VersionWatcher.constructor | src/core/version-watcher.js:27-38 | merged options; no version held, no timer, no listeners |
| Watcher.VersionWatcher.Stop | src/core/version-watcher.js:107-112 | afterwards no timer and no live interval, whether or not one existed; nothing else changes |
| Watcher.VersionWatcher.Start | src/core/version-watcher.js:102-105 | stops first, then exactly one interval is live: a fresh one, held in `timer` |
| Watcher.VersionWatcher.NotifyListeners | src/core/version-watcher.js:90-100 | a truthy `isTip` clears the timer and a falsy one leaves it; every listener is called once with `{newVersion, ...options}`; the new version is then held |
| Watcher.VersionWatcher.CheckVersion | src/core/version-watcher.js:71-88 | notifies iff the fetch succeeded, a version was held (truthy) and the fetched one differs; a success always adopts the fetched version; a failure, a first version or the same version calls no one and keeps the timer |
| Watcher.VersionWatcher.Initialize | src/core/version-watcher.js:40-48 | one check: it notifies iff the fetch succeeded, a truthy version was held and the fetched one differs, and then calls every listener once with `{newVersion, ...options}`; otherwise no one is called; a success adopts the fetched version; afterwards exactly one interval is live |
| Watcher.VersionWatcher.ListenPageVisible | src/core/version-watcher.js:51-58 | a hidden page stops polling and changes nothing else; a visible one checks, notifying iff the fetched version differs from a held truthy one and then calling every listener once with the event, adopts a fetched version, and restarts polling with exactly one live interval |
| Watcher.VersionWatcher.OnUpdate | src/core/version-watcher.js:114-115 | the listener set gains the callback; a callback already present is not added twice |
| Watcher.VersionWatcher.RemoveListener | src/core/version-watcher.js:116 | the remover deletes exactly that callback and reports whether it was present |
| WatcherWorker.ChangedData | src/core/version-watcher.worker.js:55-62 | the `version-changed` payload has exactly the keys `newVersion`, `currentVersion` and `isTip`, and no `version` key |
| WatcherWorker.ErrorText | src/core/version-watcher.worker.js:107-137 | an error report's message is the host's text when truthy, and the fixed fallback text otherwise, so it is never empty |
| WatcherWorker.WorkerScope.constructor | src/core/version-watcher.worker.js:6-16 | loading the script posts `init` once; the default options (polling on); no version and no timer |
| WatcherWorker.WorkerScope.StopChecking | src/core/version-watcher.worker.js:94-104 | clears the timer; posts `stopped` only when a timer existed, so a second call posts nothing |
| WatcherWorker.WorkerScope.StartChecking | src/core/version-watcher.worker.js:77-92 | stops first; starts one immediate check; a fresh interval exists iff `options.polling` is truthy; posts `started` with the polling flag after any `stopped` |
| WatcherWorker.WorkerScope.Tick | src/core/version-watcher.worker.js:85 | a live interval starts a check; a cleared one starts nothing |
| WatcherWorker.WorkerScope.CheckCompleted | src/core/version-watcher.worker.js:40-75 | a failure, a first version or the same version posts nothing; a success adopts the fetched version; a change posts one `version-changed` with the new and previous versions and `isTip`, then stops when `isTip` is truthy |
| WatcherWorker.WorkerScope.OnMessage | src/core/version-watcher.worker.js:19-38 | `start` spreads `data` over the options and then starts checking; `stop` stops; `checkNow` starts one check; `syncVersion` replaces the version silently; an unknown type changes nothing and posts nothing |
| WatcherWorker.WorkerScope.OnError | src/core/version-watcher.worker.js:107-121 | posts one `error` report whose message falls back to the fixed text |
| WatcherWorker.WorkerScope.OnUnhandledRejection | src/core/version-watcher.worker.js:124-137 | posts one `error` report for the rejection reason |
| WatcherWorker.SyncThenSameVersion | src/core/version-watcher.worker.js:33-65 | after `syncVersion(v)`, a check that fetches `v` posts nothing and keeps the timer |
| WatcherWrapper.WrapperOptions | src/core/version-watcher-wrapper.js:22-29 | the user options override the five defaults key by key |
| WatcherWrapper.FallbackKeepsOptions | src/core/version-watcher-wrapper.js:89-99 | a fallback watcher built from the wrapper's options ends up with exactly those options |
| WatcherWrapper.WorkerPollsByDefault | src/core/version-watcher-wrapper.js:106-110 | unless the application sets `polling`, the options sent with `start` leave the worker polling |
| WatcherWrapper.RouteFor | src/core/version-watcher-wrapper.js:113-119 | a command goes to the worker iff the mode is worker and a worker exists, and to the fallback watcher iff the mode is fallback and one has loaded |
| WatcherWrapper.CallOnWatcher | src/core/version-watcher-wrapper.js:117 | calling a method by name on a `VersionWatcher` returns iff the class defines that name, and throws otherwise |
| WatcherWrapper.CheckNowThrowsInFallback | src/core/version-watcher-wrapper.js:116-117 | the call `checkNow` makes on the fallback watcher throws |
| WatcherWrapper.CheckNowCorrectedChecks | src/core/version-watcher-wrapper.js:116-117 | calling `checkVersion` instead returns |
| WatcherWrapper.WorkerEvent | src/core/version-watcher-wrapper.js:81-85 | the event carries every option unchanged, and `newVersion` is `data.version` unless an option is itself named `newVersion` |
| WatcherWrapper.WorkerEventLosesVersion | src/core/version-watcher-wrapper.js:81-85 | for every message the worker posts, the event's `newVersion` is `undefined` (unless an option is named `newVersion`) |
| WatcherWrapper.WorkerEventCorrected | src/core/version-watcher-wrapper.js:81-85 | reading `data.newVersion`, the event carries the worker's new version |
| WatcherWrapper.ModeAgnosticEvent | src/core/version-watcher-wrapper.js:81-98 | with the corrected reading, a change reaches callbacks as the same event in worker and in fallback mode |
| WatcherWrapper.VersionWatcherWrapper.constructor | src/core/version-watcher-wrapper.js:19-50 | worker mode iff workers exist, else fallback mode with one load pending; merged options; no callbacks; only a worker leads to the visibility subscription |
| WatcherWrapper.VersionWatcherWrapper.OnWorkerError | src/core/version-watcher-wrapper.js:55-59 | a worker error switches to fallback mode and starts a load; only the mode and the pending loads change, so the worker is kept and the options stay; no method sets the mode back to worker |
| WatcherWrapper.VersionWatcherWrapper.OnFallbackLoaded | src/core/version-watcher-wrapper.js:90-99 | a pending load yields a fresh fallback watcher with the wrapper's unchanged options and the forwarder as its only listener; its first fetch is in flight, so it holds no version, has no timer and has called no one; nothing else in the wrapper changes |
| WatcherWrapper.VersionWatcherWrapper.OnFallbackInitialized | src/core/version-watcher-wrapper.js:95-98 | the loaded watcher's first fetch settles: it checks, adopts a fetched version and then has exactly one live interval, even when `destroy` has dropped it; its options and listeners stay; a change it detects calls the forwarder once and reaches every callback as its event, otherwise no callback runs |
| WatcherWrapper.VersionWatcherWrapper.OnFallbackLoadFailed | src/core/version-watcher-wrapper.js:100-102 | a failed load only settles the pending load |
| WatcherWrapper.VersionWatcherWrapper.FanOut | src/core/version-watcher-wrapper.js:86 | every callback is called once, in order, with the event and `isTip` |
| WatcherWrapper.VersionWatcherWrapper.HandleVersionChanged | src/core/version-watcher-wrapper.js:81-87 | every callback receives the as-written event built from `data.version`, and `data.isTip` |
| WatcherWrapper.VersionWatcherWrapper.OnWorkerMessage | src/core/version-watcher-wrapper.js:60-77 | only `version-changed` reaches the callbacks, whatever the mode; every other message type changes nothing |
| WatcherWrapper.VersionWatcherWrapper.OnFallbackCheck | src/core/version-watcher-wrapper.js:96-98 | a check of the fallback watcher: a detected change calls the forwarder once, stops polling iff `isTip` is truthy, and reaches every callback as its event; otherwise no one is called and the timer stays; the watcher's options and listeners stay, and only `deliveries` changes in the wrapper |
| WatcherWrapper.VersionWatcherWrapper.Initialize | src/core/version-watcher-wrapper.js:106-110 | posts `start` with the options only in worker mode with a worker |
| WatcherWrapper.VersionWatcherWrapper.CheckNow | src/core/version-watcher-wrapper.js:113-119 | routed: `checkNow` to the worker, the nonexistent method on the fallback watcher (throws), or nothing |
| WatcherWrapper.VersionWatcherWrapper.CheckNowCorrected | src/core/version-watcher-wrapper.js:113-119 | routed like `CheckNow`: posts `checkNow` to the worker; in fallback mode the fallback watcher runs a check with the effects of `OnFallbackCheck` on the watcher and the callbacks; with no backend nothing is posted or delivered; only `posted`, `deliveries` and the fallback watcher can change |
| WatcherWrapper.VersionWatcherWrapper.Stop | src/core/version-watcher-wrapper.js:145-151 | routed: `stop` to the worker; or the fallback watcher loses its interval while its version, options, listeners and calls stay; or nothing; a fallback watcher off the route is unchanged |
| WatcherWrapper.VersionWatcherWrapper.ListenPageVisible | src/core/version-watcher-wrapper.js:122-128 | hidden routes a stop, which on the fallback watcher clears the interval and keeps its version, options, listeners and calls; visible routes a check now, which throws in fallback mode and leaves the fallback watcher as it was; with no backend nothing is posted and nothing throws |
| WatcherWrapper.VersionWatcherWrapper.OnUpdate | src/core/version-watcher-wrapper.js:154-155 | the callback set gains the callback once |
| WatcherWrapper.VersionWatcherWrapper.RemoveCallback | src/core/version-watcher-wrapper.js:156-158 | the remover deletes exactly that callback |
| WatcherWrapper.VersionWatcherWrapper.Destroy | src/core/version-watcher-wrapper.js:162-171 | terminates and drops the worker, or stops and drops the fallback watcher (its version, options, listeners and calls kept), by mode; always empties the callback set; options, posted commands and deliveries stay |
| WatcherWrapper.DowngradeThenCheckNow | src/core/version-watcher-wrapper.js:55-119 | after a worker error, a successful load and its first fetch, the mode is fallback, `checkNow` throws, and the corrected one adopts the fetched version |
| WatcherWrapper.DestroyDuringFirstFetch | src/core/version-watcher-wrapper.js:90-171 | `destroy` while the fallback watcher's first fetch is in flight drops the watcher, yet that fetch settling starts its interval: the dropped watcher polls and the wrapper can no longer stop it, and no callback runs |
| WatcherWrapper.DowngradeKeepsOptions | src/core/version-watcher-wrapper.js:55-99 | after a worker error and a successful load, the fallback watcher runs with exactly the wrapper's options, so every user option reaches it unchanged |
| TabPresence.StaleIds | src/utils/tab-manager.js:63-64 | exactly the known ids silent for more than 10000 ms |
| TabPresence.Survivors | src/utils/tab-manager.js:60-69 | the sweep keeps exactly the other ids, with their times |
| TabPresence.SweepDropsOne | src/utils/tab-manager.js:60-69 | when exactly one known tab went silent, a sweep lowers the count by exactly one |
| TabPresence.TabManager.constructor | src/utils/tab-manager.js:2-27 | construction posts only `presence` and starts the heartbeat; no tabs known |
| TabPresence.TabManager.BroadcastPresence | src/utils/tab-manager.js:35-41 | posts `presence` with the own id and the time; throws iff the channel is closed, and then posts nothing |
| TabPresence.TabManager.BroadcastLeave | src/utils/tab-manager.js:44-49 | posts `leave` with the own id; throws iff the channel is closed, and then posts nothing |
| TabPresence.TabManager.HandleMessage | src/utils/tab-manager.js:72-102 | an own message, or any message after the channel closed, changes nothing; any other one sets the sender's last-seen time; `presence` adds the sender, `leave` removes it, `sync_request` answers with `presence`; the own id never enters the set |
| TabPresence.TabManager.CleanInactiveTabs | src/utils/tab-manager.js:60-69 | removes from both tables exactly the ids silent for more than 10000 ms; does nothing before the first message |
| TabPresence.TabManager.Heartbeat | src/utils/tab-manager.js:52-57 | while running, announces presence, then sweeps; a stopped heartbeat changes nothing |
| TabPresence.TabManager.OnVisibilityChange | src/utils/tab-manager.js:14-18 | only a visible page announces presence; after `destroy` a visible page throws and posts nothing |
| TabPresence.TabManager.OnUnload | src/utils/tab-manager.js:21-23 | unloading posts `leave`; after `destroy` it throws and posts nothing |
| TabPresence.TabManager.GetTabCount | src/utils/tab-manager.js:105-108 | the number of other tabs plus one, so at least one |
| TabPresence.TabManager.GetTabIds | src/utils/tab-manager.js:111-113 | the other tabs in insertion order, then the own id; as many ids as `GetTabCount`, none twice |
| TabPresence.TabManager.Destroy | src/utils/tab-manager.js:116-122 | stops the heartbeat, posts `leave` and closes the channel; a second `destroy` throws at the `leave` and posts nothing |
| TabPresence.DestroyThenEventsThrow | src/utils/tab-manager.js:14-23 | after `destroy`, a visible page, an unload and a second `destroy` each throw, and nothing is posted after the `leave` |
| Dispatcher.Invocations | src/utils/event-dispatcher.js:12 | running a list runs each entry's callback once, in order, with the data |
| Dispatcher.StripRemovesOnce | src/utils/event-dispatcher.js:21-27 | letting the wrappers of a list run one by one removes exactly the `once` wrappers among them |
| Dispatcher.EventDispatcher.constructor | src/utils/event-dispatcher.js:2 | an empty event map |
| Dispatcher.EventDispatcher.Register | src/utils/event-dispatcher.js:3-8 | appends to the event's list, creating it if absent; other events keep their lists |
| Dispatcher.EventDispatcher.On | src/utils/event-dispatcher.js:3-8 | appends the callback itself, even when it is already in the list |
| Dispatcher.EventDispatcher.Off | src/utils/event-dispatcher.js:15-20 | removes every occurrence and keeps the rest in order; an unknown event is left alone |
| Dispatcher.EventDispatcher.Once | src/utils/event-dispatcher.js:21-27 | appends a fresh wrapper, different from every stored function |
| Dispatcher.EventDispatcher.Invoke | src/utils/event-dispatcher.js:21-27 | a stored function runs its callback; a `once` wrapper then removes itself |
| Dispatcher.EventDispatcher.Emit | src/utils/event-dispatcher.js:9-14 | runs the list as it was when the emit began, in order; afterwards exactly its `once` wrappers are gone; an unknown event does nothing |
| Dispatcher.EventDispatcher.Clear | src/utils/event-dispatcher.js:28-35 | a truthy name deletes only that key; no name empties the map |
| Dispatcher.DuplicateRunsTwice | src/utils/event-dispatcher.js:3-14 | registering one callback twice makes an emit run it twice |
| Dispatcher.OnceRunsOnce | src/utils/event-dispatcher.js:21-27 | a `once` callback runs on the first emit only |
| Dispatcher.OffMissesOnce | src/utils/event-dispatcher.js:15-27 | `off` with the application's callback misses the `once` wrapper, so the callback still runs |
| Listeners.Keep | src/utils/event-listener.js:19-26 | the records a removal leaves, in order; never more than before |
| Listeners.Removals | src/utils/event-listener.js:19-26 | one `removeEventListener` per matching record |
| Listeners.Detach | src/utils/event-listener.js:27-32 | one `removeEventListener` per record, in order, with that record's target, event and handler |
| Listeners.KeepMembers | src/utils/event-listener.js:19-26 | a removal keeps exactly the records for other triples |
| Listeners.KeepOrDetach | src/utils/event-listener.js:19-26 | every record is either kept or detached, never both |
| Listeners.RemoveAbsent | src/utils/event-listener.js:20-21 | removing a triple that was never added keeps every record and calls nothing |
| Listeners.RemoveTwice | src/utils/event-listener.js:19-26 | a second removal of the same triple changes nothing |
| Listeners.EventListenerRegistry.constructor | src/utils/event-listener.js:10 | an empty registry |
| Listeners.EventListenerRegistry.Add | src/utils/event-listener.js:11-18 | attaches the handler and stores a new record, even for a triple already stored |
| Listeners.EventListenerRegistry.Visit | src/utils/event-listener.js:20-25 | the `forEach` callback: a matching record is detached and deleted in place; any other is left |
| Listeners.EventListenerRegistry.Remove | src/utils/event-listener.js:19-26 | leaves exactly `Keep` of the old records and detaches once per matching record |
| Listeners.EventListenerRegistry.RemoveAllListeners | src/utils/event-listener.js:27-32 | detaches every record in order, then empties the registry |
| Listeners.DuplicateStoredTwice | src/utils/event-listener.js:11-26 | adding a triple twice stores two records; one removal detaches both and leaves none |
| Transport.SelectMode | src/utils/version-broadcast.js:3-13 | BroadcastChannel iff the host has one; localStorage iff it has no channel but has storage; no-op iff it has neither |
| VersionSync.ChannelMessage | src/utils/version-broadcast.js:20 | the channel message is an object with exactly `type` and `version` |
| VersionSync.AcceptChannel | src/utils/version-broadcast.js:36-39 | delivers iff the data is truthy and its `type` is `version-sync`, and then delivers its `version` |
| VersionSync.ChannelRoundTrip | src/utils/version-broadcast.js:17-39 | what `broadcast(v)` posts, the filter accepts, delivering `v` |
| VersionSync.ChannelIgnoresOthers | src/utils/version-broadcast.js:37 | an object with another `type`, or none, is never delivered |
| VersionSync.StoredValue | src/utils/version-broadcast.js:22-26 | the stored envelope has exactly `timestamp` and `version` |
| VersionSync.HandleStorage | src/utils/version-broadcast.js:49-60 | delivers iff the key is the channel name and the parsed value and its `version` are truthy, and then delivers that `version` |
| VersionSync.StorageRoundTrip | src/utils/version-broadcast.js:22-54 | what a localStorage `broadcast(v)` writes is delivered as `v` exactly when `v` is truthy |
| VersionSync.UnparseableIgnored | src/utils/version-broadcast.js:51-58 | a value that does not parse never reaches the callback |
| VersionSync.StorageDeliveries | src/utils/version-broadcast.js:42-60 | the window listeners deliver only what `HandleStorage` accepts, at most once each |
| VersionSync.StorageReachesListeners | src/utils/version-broadcast.js:42-60 | an accepted `storage` event reaches every window listener that has a callback, in registration order, with the accepted version; a rejected one reaches none |
| VersionSync.ChannelDeliveries | src/utils/version-broadcast.js:36-39 | the channel filters deliver only what `AcceptChannel` accepts, at most once each |
| VersionSync.BroadcastReachesListeners | src/utils/version-broadcast.js:20-39 | a broadcast reaches every present channel callback, in order, with the broadcast version |
| VersionSync.VersionBroadcast.constructor | src/utils/version-broadcast.js:2-14 | the mode is chosen once by priority; only channel mode opens a channel |
| VersionSync.VersionBroadcast.Broadcast | src/utils/version-broadcast.js:17-31 | posts the message on an open channel (and throws on a closed one), or writes the envelope unless the write fails, or does nothing |
| VersionSync.VersionBroadcast.OnVersionSync | src/utils/version-broadcast.js:34-47 | adds a channel filter, or a new window listener that replaces `storageListener`, or nothing |
| VersionSync.VersionBroadcast.Destroy | src/utils/version-broadcast.js:63-70 | closes the channel, or removes only the window listener held in `storageListener` and clears the field |
| VersionSync.NoopDoesNothing | src/utils/version-broadcast.js:17-47 | in no-op mode nothing is posted, stored or registered |
| VersionSync.DestroyLeaksEarlierListener | src/utils/version-broadcast.js:42-70 | after two subscriptions and `destroy`, the first window listener stays and still delivers a broadcast version |
| RefreshSync.ChannelRuns | src/utils/refresh-broadcast.js:34-37 | data other than `'refresh'` runs no callback; only registered callbacks run, at most once each |
| RefreshSync.StorageRuns | src/utils/refresh-broadcast.js:40-51 | an event for another key runs no callback; only registered callbacks run |
| RefreshSync.RefreshReachesListeners | src/utils/refresh-broadcast.js:18-37 | `'refresh'` runs every present channel callback once, in order |
| RefreshSync.StorageReachesListeners | src/utils/refresh-broadcast.js:47-51 | a write under the channel name runs every present callback, whatever the value; any other key runs none |
| RefreshSync.RefreshBroadcast.constructor | src/utils/refresh-broadcast.js:2-15 | the mode is chosen once by priority; only channel mode opens a channel |
| RefreshSync.RefreshBroadcast.Broadcast | src/utils/refresh-broadcast.js:18-29 | posts `'refresh'` on an open channel (and throws on a closed one), or writes the time unless the write fails, or does nothing |
| RefreshSync.RefreshBroadcast.OnRefresh | src/utils/refresh-broadcast.js:32-45 | adds a channel filter, or a new window listener that replaces `storageListener`, or nothing |
| RefreshSync.RefreshBroadcast.Close | src/utils/refresh-broadcast.js:53-60 | closes the channel, or removes the held window listener and clears the field; with the field clear nothing changes |
| RefreshSync.NoopDoesNothing | src/utils/refresh-broadcast.js:17-45 | in no-op mode nothing is posted, stored or registered |
| RefreshSync.CloseTwice | src/utils/refresh-broadcast.js:53-60 | a second `close` leaves the listeners as the first left them |
| RefreshSync.CloseLeaksEarlierListener | src/utils/refresh-broadcast.js:39-60 | after two subscriptions and `close`, the first window listener stays and still runs on the next refresh |

## Left out

- src/core/network-monitor.js is not part of this model. The fetch outcome is a parameter, and being offline is a `Failed` outcome.
- `isSameOrigin` (src/utils/common.js) is not modelled, and neither is `listenJSError` in the watcher or the wrapper. Both depend on DOM error events and the host URL parser.
- `createInterval` is not part of this model. Intervals are abstract handles.
- No interleaving of asynchronous steps is modelled. Real timers, `await`, and the message channel between worker and main thread are out as well.
- Each step runs to completion before the next one starts. So two checks in flight can complete in either order, but never overlapped.
- BroadcastChannel and localStorage are records of what was posted and written. Delivery to other tabs is stated by the delivery functions, not simulated.
- `JSON.stringify`/`JSON.parse` are not modelled. The stored envelope is assumed to read back as written, and a parse failure is an absent value.
- Numbers are integers. Floating point, `NaN` and `Date.now()` precision are out.
- Object identity is out. Callbacks, handlers, event targets and timers are ids, and the `once` wrapper and storage closures are values with a serial number.
- A callback's own effects are left out: a throwing callback, or a callback that registers or removes callbacks during `emit`/`forEach`. A callback run is recorded, not executed.
- `console` logging is out.
- Watcher.VersionWatcher.Initialize: does not model the `visibilitychange` and `error` subscriptions it makes through the listener registry. So a dropped fallback watcher that keeps polling is still paused by its own listener while the page is hidden, which the model does not show.
- WatcherWrapper.VersionWatcherWrapper.constructor: records only whether the visibility subscription is made. The `error` subscription under `isListenJSError` is out.
- WatcherWrapper.VersionWatcherWrapper.OnFallbackLoaded: after a worker error, a second error starts a second load. The watcher of the first load is then replaced, and its pending first fetch, with the interval that fetch would start, is not kept in the model.
- WatcherWrapper.VersionWatcherWrapper.constructor: `listensVisibility` records the subscription only; the visibility events themselves come in by calling `ListenPageVisible`.
- WatcherWorker.WorkerScope.OnError: reports only `message`. `filename`, `lineno`, `colno` and `stack` are out.
- WatcherWorker.WorkerScope.OnUnhandledRejection: reports only `message`. `stack` and `name` are out, and so is a rejection reason that is `null` or `undefined`, which makes the handler itself throw.
- TabPresence.TabManager.constructor: the random tab id and the clock are parameters.
- TabPresence.TabManager.constructor: construction calls `new BroadcastChannel(channelName)` without a guard (src/utils/tab-manager.js:3), so on a host without BroadcastChannel it throws a ReferenceError; the model assumes the host provides BroadcastChannel and always constructs.
- TabPresence.TabManager.Heartbeat: the 5000 ms period is not modelled; each call is one tick of the interval.
- Versions are compared by value. For the strings and numbers a version file holds this is what `!==` decides; a version that is an object, which `!==` compares by identity, is out.
- src/ui/*, src/service/index.js, src/index.js and the build configuration are not part of this model. They are UI, file and process I/O, and plugin and build glue.

## Findings

The wrapper class keeps both behaviours as written (`CheckNow`, `HandleVersionChanged`). The corrected members sit beside them: `CheckNowCorrected` in the class, and `CheckNowCorrectedChecks`, `WorkerEventCorrected` and `ModeAgnosticEvent` at module level. `DowngradeThenCheckNow` runs both versions of `checkNow` on one object.

| source | as written | input that shows it | evidently intended | confidence | as-written member | corrected member |
|---|---|---|---|---|---|---|
| src/core/version-watcher-wrapper.js:116-117 | in fallback mode `checkNow()` calls `this.fallbackWatcher.checkNow()`, which `VersionWatcher` does not define | a worker error, the fallback loaded, then `checkNow()` or the page becoming visible: a TypeError | run a check on the fallback watcher (`checkVersion()`) | not executed | WatcherWrapper.CheckNowThrowsInFallback | WatcherWrapper.VersionWatcherWrapper.CheckNowCorrected |
| src/core/version-watcher-wrapper.js:83 | the event's `newVersion` is read from `data.version`, but the worker posts `data.newVersion` (src/core/version-watcher.worker.js:58) | any `version-changed` message in worker mode: callbacks receive `newVersion: undefined` | read `data.newVersion`, so both modes deliver the same event | not executed | WatcherWrapper.WorkerEventLosesVersion | WatcherWrapper.ModeAgnosticEvent |

=== FILE: event_dispatcher.dfy ===
/** The process-wide event bus (src/utils/event-dispatcher.js): a map from
    event name to the list of functions registered for it. */
module Dispatcher {
  import opened JsValues
  import opened Seqs

  /** A function stored under an event: an application callback, or the
      closure `once` wraps around one (a new closure on every call, told
      apart here by a serial number). */
  datatype Handler = Plain(callback: CallbackId) | OnceWrapper(callback: CallbackId, serial: nat)

  /** One run of an application callback with the emitted data. */
  datatype Invocation = Invocation(callback: CallbackId, data: Value)

  /** What running `handlers` in order does: each runs its application
      callback once with `data`. */
  function Invocations(handlers: seq<Handler>, data: Value): (r: seq<Invocation>)
    ensures |r| == |handlers|
    ensures forall i :: 0 <= i < |r| ==> r[i] == Invocation(handlers[i].callback, data)
  {
    if handlers == [] then []
    else [Invocation(handlers[0].callback, data)] + Invocations(handlers[1..], data)
  }

  /** The `once` wrappers among `handlers`. */
  function OnceIn(handlers: seq<Handler>): (r: set<Handler>)
    ensures forall h :: h in r <==> h in handlers && h.OnceWrapper?
  {
    set h | h in handlers && h.OnceWrapper?
  }

  lemma InvocationsSnoc(handlers: seq<Handler>, h: Handler, data: Value)
    ensures Invocations(handlers + [h], data) == Invocations(handlers, data) + [Invocation(h.callback, data)]
  {
    assert |Invocations(handlers + [h], data)| == |handlers| + 1;
  }

  lemma InvocationsNext(snapshot: seq<Handler>, i: nat, data: Value)
    requires i < |snapshot|
    ensures Invocations(snapshot[..i + 1], data) == Invocations(snapshot[..i], data) + [Invocation(snapshot[i].callback, data)]
  {
    assert snapshot[..i + 1] == snapshot[..i] + [snapshot[i]];
    InvocationsSnoc(snapshot[..i], snapshot[i], data);
  }

  /** What is left of `stored` once every handler of `ran` has run in
      order: each `once` wrapper takes itself out, anything else leaves the
      list alone. */
  function Strip(stored: seq<Handler>, ran: seq<Handler>): seq<Handler>
    decreases ran
  {
    if ran == [] then stored
    else Strip(if ran[0].OnceWrapper? then RemoveAll(stored, {ran[0]}) else stored, ran[1..])
  }

  /** Running handlers one by one removes exactly the `once` wrappers among
      them. */
  lemma {:induction false} StripRemovesOnce(stored: seq<Handler>, ran: seq<Handler>)
    ensures Strip(stored, ran) == RemoveAll(stored, OnceIn(ran))
    decreases ran
  {
    if ran == [] {
      assert OnceIn(ran) == {};
      RemoveNothing(stored, {});
    } else {
      var h := ran[0];
      var first: set<Handler> := if h.OnceWrapper? then {h} else {};
      var after := if h.OnceWrapper? then RemoveAll(stored, {h}) else stored;
      StripRemovesOnce(after, ran[1..]);
      assert ran == [h] + ran[1..];
      assert OnceIn(ran) == first + OnceIn(ran[1..]);
      if h.OnceWrapper? {
        RemoveAllTwice(stored, {h}, OnceIn(ran[1..]));
      } else {
        assert OnceIn(ran) == OnceIn(ran[1..]);
      }
    }
  }

  class EventDispatcher {
    var events: map<string, seq<Handler>>
    /** Every callback run so far. */
    var invoked: seq<Invocation>
    var nextSerial: nat

    /** Every stored `once` wrapper is older than the next one. */
    ghost predicate Valid()
      reads this
    {
      forall e, h :: e in events && h in events[e] && h.OnceWrapper? ==> h.serial < nextSerial
    }

    constructor ()
      ensures Valid() && events == map[] && invoked == []
    {
      events := map[];
      invoked := [];
      nextSerial := 0;
    }

    /** Appends `h` to the event's list, creating the list if absent;
        other events keep theirs. */
    method Register(event: string, h: Handler)
      requires Valid()
      requires h.OnceWrapper? ==> h.serial < nextSerial
      modifies this`events
      ensures Valid()
      ensures event in events
      ensures events[event] == (if event in old(events) then old(events)[event] else []) + [h]
      ensures forall e :: e != event ==> (e in events <==> e in old(events))
      ensures forall e :: e != event && e in events ==> events[e] == old(events)[e]
    {
      var list := if event in events then events[event] else [];
      events := events[event := list + [h]];
    }

    /** `on(event, callback)`: the same callback may be stored twice. */
    method On(event: string, cb: CallbackId)
      requires Valid()
      modifies this`events
      ensures Valid()
      ensures events == old(events)[event := (if event in old(events) then old(events)[event] else []) + [Plain(cb)]]
    {
      Register(event, Plain(cb));
    }

    /** `off(event, fn)`: drops every occurrence of `fn` from the event's
        list and keeps the rest in order; an unknown event is left alone.
        The application passes its own callback (`Plain`); a `once`
        wrapper passes itself. */
    method Off(event: string, h: Handler)
      requires Valid()
      modifies this`events
      ensures Valid()
      ensures events == if event in old(events)
                        then old(events)[event := RemoveAll(old(events)[event], {h})]
                        else old(events)
    {
      if event in events {
        events := events[event := RemoveAll(events[event], {h})];
      }
    }

    /** `once(event, callback)`: stores a fresh wrapper around `callback`. */
    method Once(event: string, cb: CallbackId)
      requires Valid()
      modifies this`events, this`nextSerial
      ensures Valid()
      ensures nextSerial == old(nextSerial) + 1
      ensures events == old(events)[event := (if event in old(events) then old(events)[event] else [])
                                               + [OnceWrapper(cb, old(nextSerial))]]
      ensures forall e, h :: e in old(events) && h in old(events)[e] ==> h != OnceWrapper(cb, old(nextSerial))
    {
      var h := OnceWrapper(cb, nextSerial);
      nextSerial := nextSerial + 1;
      Register(event, h);
    }

    /** Calls one stored function: it runs its application callback, and a
        `once` wrapper then calls `off` on itself. */
    method Invoke(event: string, h: Handler, data: Value)
      requires Valid()
      modifies this`events, this`invoked
      ensures Valid()
      ensures invoked == old(invoked) + [Invocation(h.callback, data)]
      ensures events == if h.OnceWrapper? && event in old(events)
                        then old(events)[event := RemoveAll(old(events)[event], {h})]
                        else old(events)
    {
      invoked := invoked + [Invocation(h.callback, data)];
      if h.OnceWrapper? {
        Off(event, h);
      }
    }

    /** `emit(event, data)`: runs the event's list as it was when the emit
        began, in order; each `once` wrapper removes itself after running.
        An unknown event does nothing. */
    method Emit(event: string, data: Value)
      requires Valid()
      modifies this`events, this`invoked
      ensures Valid()
      ensures event !in old(events) ==> events == old(events) && invoked == old(invoked)
      ensures event in old(events) ==>
        && invoked == old(invoked) + Invocations(old(events)[event], data)
        && events == old(events)[event := RemoveAll(old(events)[event], OnceIn(old(events)[event]))]
    {
      if event in events {
        var snapshot := events[event];
        ghost var left := snapshot;
        var i := 0;
        while i < |snapshot|
          invariant 0 <= i <= |snapshot|
          invariant Valid()
          invariant invoked == old(invoked) + Invocations(snapshot[..i], data)
          invariant events == old(events)[event := left]
          invariant Strip(left, snapshot[i..]) == Strip(snapshot, snapshot)
        {
          var h := snapshot[i];
          assert snapshot[i..][1..] == snapshot[i + 1..];
          InvocationsNext(snapshot, i, data);
          AppendAssoc(old(invoked), Invocations(snapshot[..i], data), [Invocation(h.callback, data)]);
          Invoke(event, h, data);
          left := if h.OnceWrapper? then RemoveAll(left, {h}) else left;
          i := i + 1;
        }
        assert snapshot[..i] == snapshot;
        StripRemovesOnce(snapshot, snapshot);
      }
    }

    /** `clear(event)`: a truthy name deletes that one entry; no name (or an
        empty one) empties the whole map. */
    method Clear(event: Option<string>)
      modifies this`events
      ensures event.Some? && event.value != "" ==> events == old(events) - {event.value}
      ensures !(event.Some? && event.value != "") ==> events == map[]
    {
      if event.Some? && event.value != "" {
        events := events - {event.value};
      } else {
        events := map[];
      }
    }
  }

  /** Registering one callback twice makes every emit run it twice. */
  method DuplicateRunsTwice(event: string, cb: CallbackId, data: Value) returns (runs: seq<Invocation>)
    ensures runs == [Invocation(cb, data), Invocation(cb, data)]
  {
    var bus := new EventDispatcher();
    bus.On(event, cb);
    bus.On(event, cb);
    bus.Emit(event, data);
    runs := bus.invoked;
  }

  /** A `once` callback runs on the first emit only. */
  method OnceRunsOnce(event: string, cb: CallbackId, first: Value, second: Value) returns (runs: seq<Invocation>)
    ensures runs == [Invocation(cb, first)]
  {
    var bus := new EventDispatcher();
    bus.Once(event, cb);
    bus.Emit(event, first);
    bus.Emit(event, second);
    runs := bus.invoked;
  }

  /** `off` with the application's callback does not reach the wrapper
      `once` stored, so the callback still runs. */
  method OffMissesOnce(event: string, cb: CallbackId, data: Value) returns (runs: seq<Invocation>)
    ensures runs == [Invocation(cb, data)]
  {
    var bus := new EventDispatcher();
    bus.Once(event, cb);
    bus.Off(event, Plain(cb));
    bus.Emit(event, data);
    runs := bus.invoked;
  }
}

=== FILE: event_listener.dfy ===
/** The registry of DOM listeners (src/utils/event-listener.js): every
    `addEventListener` made through it is remembered as a record so that it
    can be undone later.  The registry is a JavaScript `Set` of record
    objects; each add builds a new object, so records are told apart by a
    serial number and the set is a sequence in insertion order. */
module Listeners {
  import opened Seqs

  /** An event target (`window`, `document`, a channel), by identity. */
  type TargetId = nat
  /** A handler function, by identity. */
  type HandlerId = nat

  /** One remembered registration. */
  datatype Record = Record(serial: nat, target: TargetId, event: string, handler: HandlerId)

  /** A call the registry makes on a target. */
  datatype DomCall =
    | AddListener(target: TargetId, event: string, handler: HandlerId)
    | RemoveListener(target: TargetId, event: string, handler: HandlerId)

  /** The record is for this target, event name and handler. */
  predicate Matches(r: Record, target: TargetId, event: string, handler: HandlerId) {
    r.target == target && r.event == event && r.handler == handler
  }

  /** The records a removal leaves, in their order. */
  function Keep(rs: seq<Record>, target: TargetId, event: string, handler: HandlerId): (r: seq<Record>)
    ensures |r| <= |rs|
  {
    if rs == [] then []
    else if Matches(rs[0], target, event, handler) then Keep(rs[1..], target, event, handler)
    else [rs[0]] + Keep(rs[1..], target, event, handler)
  }

  /** The `removeEventListener` calls a removal makes: one per matching
      record. */
  function Removals(rs: seq<Record>, target: TargetId, event: string, handler: HandlerId): (r: seq<DomCall>)
    ensures |r| <= |rs|
  {
    if rs == [] then []
    else if Matches(rs[0], target, event, handler)
    then [RemoveListener(target, event, handler)] + Removals(rs[1..], target, event, handler)
    else Removals(rs[1..], target, event, handler)
  }

  /** The `removeEventListener` calls that detach every record, in order. */
  function Detach(rs: seq<Record>): (r: seq<DomCall>)
    ensures |r| == |rs|
    ensures forall i :: 0 <= i < |r| ==> r[i] == RemoveListener(rs[i].target, rs[i].event, rs[i].handler)
  {
    if rs == [] then []
    else [RemoveListener(rs[0].target, rs[0].event, rs[0].handler)] + Detach(rs[1..])
  }

  lemma {:induction false} KeepAppend(s: seq<Record>, t: seq<Record>, target: TargetId, event: string, handler: HandlerId)
    ensures Keep(s + t, target, event, handler) == Keep(s, target, event, handler) + Keep(t, target, event, handler)
    ensures Removals(s + t, target, event, handler) == Removals(s, target, event, handler) + Removals(t, target, event, handler)
  {
    if s == [] {
      assert s + t == t;
    } else {
      assert (s + t)[1..] == s[1..] + t;
      KeepAppend(s[1..], t, target, event, handler);
      if Matches(s[0], target, event, handler) {
        AppendAssoc([RemoveListener(target, event, handler)], Removals(s[1..], target, event, handler),
                    Removals(t, target, event, handler));
      } else {
        AppendAssoc([s[0]], Keep(s[1..], target, event, handler), Keep(t, target, event, handler));
      }
    }
  }

  lemma DetachSnoc(s: seq<Record>, r: Record)
    ensures Detach(s + [r]) == Detach(s) + [RemoveListener(r.target, r.event, r.handler)]
  {
    assert |Detach(s + [r])| == |s| + 1;
  }

  /** Removing a triple that was never added keeps every record and calls
      nothing on the target. */
  lemma {:induction false} RemoveAbsent(rs: seq<Record>, target: TargetId, event: string, handler: HandlerId)
    requires forall x :: x in rs ==> !Matches(x, target, event, handler)
    ensures Keep(rs, target, event, handler) == rs
    ensures Removals(rs, target, event, handler) == []
  {
    if rs != [] {
      RemoveAbsent(rs[1..], target, event, handler);
    }
  }

  /** Every record either stays or is detached exactly once. */
  lemma {:induction false} KeepOrDetach(rs: seq<Record>, target: TargetId, event: string, handler: HandlerId)
    ensures |Keep(rs, target, event, handler)| + |Removals(rs, target, event, handler)| == |rs|
  {
    if rs != [] {
      KeepOrDetach(rs[1..], target, event, handler);
    }
  }

  /** A removal keeps exactly the records for other triples. */
  lemma {:induction false} KeepMembers(rs: seq<Record>, target: TargetId, event: string, handler: HandlerId)
    ensures forall x :: x in Keep(rs, target, event, handler) <==> x in rs && !Matches(x, target, event, handler)
  {
    if rs != [] {
      KeepMembers(rs[1..], target, event, handler);
      assert rs == [rs[0]] + rs[1..];
    }
  }

  /** A second removal of the same triple finds nothing left to remove. */
  lemma RemoveTwice(rs: seq<Record>, target: TargetId, event: string, handler: HandlerId)
    ensures Keep(Keep(rs, target, event, handler), target, event, handler) == Keep(rs, target, event, handler)
    ensures Removals(Keep(rs, target, event, handler), target, event, handler) == []
  {
    KeepMembers(rs, target, event, handler);
    RemoveAbsent(Keep(rs, target, event, handler), target, event, handler);
  }

  /** Visiting one more record during a removal: a matching record is
      dropped and detached, any other is kept. */
  lemma KeepSnoc(pre: seq<Record>, x: Record, target: TargetId, event: string, handler: HandlerId)
    ensures Matches(x, target, event, handler) ==>
      && Keep(pre + [x], target, event, handler) == Keep(pre, target, event, handler)
      && Removals(pre + [x], target, event, handler)
         == Removals(pre, target, event, handler) + [RemoveListener(target, event, handler)]
    ensures !Matches(x, target, event, handler) ==>
      && Keep(pre + [x], target, event, handler) == Keep(pre, target, event, handler) + [x]
      && Removals(pre + [x], target, event, handler) == Removals(pre, target, event, handler)
  {
    KeepAppend(pre, [x], target, event, handler);
  }

  class EventListenerRegistry {
    /** `EVENT_LISTENERS`, in insertion order. */
    var records: seq<Record>
    /** Every call made on a target through the registry. */
    var dom: seq<DomCall>
    var nextSerial: nat

    /** Records are distinct objects, all older than the next one. */
    ghost predicate Valid()
      reads this
    {
      Distinct(records) && forall r :: r in records ==> r.serial < nextSerial
    }

    constructor ()
      ensures Valid() && records == [] && dom == []
    {
      records := [];
      dom := [];
      nextSerial := 0;
    }

    /** `addEventListenerWrapper`: attaches the handler and remembers a new
        record, even when the same triple is already there. */
    method Add(target: TargetId, event: string, handler: HandlerId)
      requires Valid()
      modifies this
      ensures Valid()
      ensures dom == old(dom) + [AddListener(target, event, handler)]
      ensures records == old(records) + [Record(old(nextSerial), target, event, handler)]
      ensures nextSerial == old(nextSerial) + 1
    {
      dom := dom + [AddListener(target, event, handler)];
      records := records + [Record(nextSerial, target, event, handler)];
      nextSerial := nextSerial + 1;
    }

    /** The callback `removeEventListenerWrapper` passes to `forEach`,
        visiting the record at position `k`: a record for this triple is
        detached from its target and deleted from the set, any other is
        left where it is. */
    method Visit(k: nat, target: TargetId, event: string, handler: HandlerId) returns (next: nat)
      requires Valid() && k < |records|
      modifies this`records, this`dom
      ensures Valid()
      ensures Matches(old(records)[k], target, event, handler) ==>
        && records == old(records)[..k] + old(records)[k + 1..]
        && dom == old(dom) + [RemoveListener(target, event, handler)]
        && next == k
      ensures !Matches(old(records)[k], target, event, handler) ==>
        records == old(records) && dom == old(dom) && next == k + 1
    {
      var listener := records[k];
      if Matches(listener, target, event, handler) {
        dom := dom + [RemoveListener(target, event, handler)];
        assert records == records[..k] + [listener] + records[k + 1..];
        DistinctDelete(records[..k], listener, records[k + 1..]);
        records := records[..k] + records[k + 1..];
        next := k;
      } else {
        next := k + 1;
      }
    }

    /** `removeEventListenerWrapper`: visits every record; each one for this
        triple is detached from its target and deleted from the set, and
        the others stay in their order.  The record being visited sits just
        after the `k` records kept so far. */
    method Remove(target: TargetId, event: string, handler: HandlerId)
      requires Valid()
      modifies this`records, this`dom
      ensures Valid()
      ensures records == Keep(old(records), target, event, handler)
      ensures dom == old(dom) + Removals(old(records), target, event, handler)
    {
      var todo := records;
      var k := 0;
      ghost var done: seq<Record> := [];
      ghost var kept: seq<Record> := [];
      while todo != []
        invariant old(records) == done + todo
        invariant kept == Keep(done, target, event, handler)
        invariant records == kept + todo && k == |kept|
        invariant dom == old(dom) + Removals(done, target, event, handler)
        invariant Valid()
        decreases |todo|
      {
        var listener := todo[0];
        var rest := todo[1..];
        assert records == kept + [listener] + rest by {
          assert todo == [listener] + rest;
        }
        KeepSnoc(done, listener, target, event, handler);
        ShiftFirst(done, todo);
        DeleteAt(kept, listener, rest);
        AppendAssoc(old(dom), Removals(done, target, event, handler), [RemoveListener(target, event, handler)]);
        k := Visit(k, target, event, handler);
        if !Matches(listener, target, event, handler) {
          kept := kept + [listener];
        }
        done := done + [listener];
        todo := rest;
      }
      assert done + todo == done;
    }

    /** `removeAllEventListeners`: detaches every record in order, then
        empties the set. */
    method RemoveAllListeners()
      requires Valid()
      modifies this`records, this`dom
      ensures Valid()
      ensures records == []
      ensures dom == old(dom) + Detach(old(records))
    {
      var i := 0;
      while i < |records|
        invariant 0 <= i <= |records|
        invariant records == old(records)
        invariant dom == old(dom) + Detach(records[..i])
      {
        DetachSnoc(records[..i], records[i]);
        assert records[..i + 1] == records[..i] + [records[i]];
        dom := dom + [RemoveListener(records[i].target, records[i].event, records[i].handler)];
        i := i + 1;
      }
      assert records[..i] == records;
      records := [];
    }
  }

  /** Adding one triple twice stores two records, and one removal detaches
      both. */
  method DuplicateStoredTwice(target: TargetId, event: string, handler: HandlerId)
    returns (stored: nat, detached: seq<DomCall>, left: seq<Record>)
    ensures stored == 2
    ensures detached == [RemoveListener(target, event, handler), RemoveListener(target, event, handler)]
    ensures left == []
  {
    var registry := new EventListenerRegistry();
    registry.Add(target, event, handler);
    registry.Add(target, event, handler);
    stored := |registry.records|;
    var before := |registry.dom|;
    registry.Remove(target, event, handler);
    detached := registry.dom[before..];
    left := registry.records;
  }
}

=== FILE: js_values.dfy ===
/** The part of JavaScript's value semantics the model relies on. */
module JsValues {

  datatype Option<T> = None | Some(value: T)

  /** A JavaScript value. Numbers are integers.  Two values are equal here
      when their contents are; for the primitives a version file holds this
      is what `===` and `!==` decide, while for objects `===` compares
      identity, which the model does not capture. */
  datatype Value =
    | Undefined
    | Null
    | Bool(b: bool)
    | Num(n: int)
    | Str(s: string)
    | Obj(fields: map<string, Value>)

  /** The test behind `if (v)`, `v && …` and `!v`. */
  predicate Truthy(v: Value) {
    match v
    case Undefined => false
    case Null => false
    case Bool(b) => b
    case Num(n) => n != 0
    case Str(s) => s != ""
    case Obj(_) => true
  }

  /** A plain object such as an options bag or a message payload. */
  type Options = map<string, Value>

  /** Property read `o.key`; a missing property reads as `undefined`. */
  function Lookup(o: Options, key: string): Value {
    if key in o then o[key] else Undefined
  }

  /** Property read on any value other than `null` and `undefined` (which
      throw); a primitive has none of the properties read here. */
  function Prop(v: Value, key: string): Value
    requires !v.Undefined? && !v.Null?
  {
    if v.Obj? then Lookup(v.fields, key) else Undefined
  }

  /** Object spread `{...base, ...over}`: every key of either, and `over`
      wins where both have one. */
  function Spread(base: Options, over: Options): (r: Options)
    ensures r.Keys == base.Keys + over.Keys
    ensures forall k :: k in over ==> r[k] == over[k]
    ensures forall k :: k in base && k !in over ==> r[k] == base[k]
  {
    base + over
  }

  /** Identity of a callback function registered by the application. */
  type CallbackId = nat

  /** Outcome of `NetworkService.fetchVersion`: the fields `version` and
      `isTip` of the parsed body, or a failure (offline, HTTP error, bad
      body), which the callers catch. */
  datatype Fetch = Fetched(version: Value, isTip: Value) | Failed
}

=== FILE: refresh_broadcast.dfy ===
/** Cross-tab "refresh now" requests (src/utils/refresh-broadcast.js): the
    same transport choice as the version announcements, carrying no data. */
module RefreshSync {
  import opened JsValues
  import opened Seqs
  import opened Transport

  /** The constructor's default channel name. */
  const DefaultChannelName: string := "refresh-all-tabs"
  /** The one message a channel broadcast posts. */
  const RefreshMessage: Value := Str("refresh")

  /** The filter `onRefresh` installs on the channel: strict equality with
      the string `'refresh'`. */
  predicate AcceptRefresh(data: Value) {
    data == RefreshMessage
  }

  /** `handleStorageEvent`: any write under the channel name is a refresh
      request, whatever value was written (or removed). */
  predicate HandleStorage(channelName: string, key: Option<string>) {
    key == Some(channelName)
  }

  /** The callbacks the channel filters run for one incoming message, in
      registration order. */
  function ChannelRuns(callbacks: seq<Option<CallbackId>>, data: Value): (r: seq<CallbackId>)
    ensures |r| <= |callbacks|
    ensures !AcceptRefresh(data) ==> r == []
    ensures forall cb :: cb in r ==> Some(cb) in callbacks
  {
    if callbacks == [] then []
    else if callbacks[0].Some? && AcceptRefresh(data) then [callbacks[0].value] + ChannelRuns(callbacks[1..], data)
    else ChannelRuns(callbacks[1..], data)
  }

  /** The callbacks the window's `storage` listeners run for one event. */
  function StorageRuns(handlers: seq<StorageHandler>, channelName: string, key: Option<string>): (r: seq<CallbackId>)
    ensures |r| <= |handlers|
    ensures !HandleStorage(channelName, key) ==> r == []
    ensures forall cb :: cb in r ==> exists h :: h in handlers && h.callback == Some(cb)
  {
    if handlers == [] then []
    else if handlers[0].callback.Some? && HandleStorage(channelName, key)
    then [handlers[0].callback.value] + StorageRuns(handlers[1..], channelName, key)
    else StorageRuns(handlers[1..], channelName, key)
  }

  /** A refresh message reaches every present channel callback once, in
      order. */
  lemma {:induction false} RefreshReachesListeners(callbacks: seq<Option<CallbackId>>)
    ensures |ChannelRuns(callbacks, RefreshMessage)| == |Present(callbacks)|
    ensures ChannelRuns(callbacks, RefreshMessage) == Present(callbacks)
  {
    if callbacks != [] {
      RefreshReachesListeners(callbacks[1..]);
    }
  }

  /** A write under the channel name runs the callback of every registered
      window listener that has one, in registration order; a write under
      any other key runs none. */
  lemma {:induction false} StorageReachesListeners(handlers: seq<StorageHandler>, channelName: string, key: Option<string>)
    ensures StorageRuns(handlers, channelName, key)
            == if key == Some(channelName) then Present(Callbacks(handlers)) else []
  {
    if handlers != [] {
      StorageReachesListeners(handlers[1..], channelName, key);
      assert Callbacks(handlers)[1..] == Callbacks(handlers[1..]);
    }
  }

  /** The present callbacks among `callbacks`, in order. */
  function Present(callbacks: seq<Option<CallbackId>>): seq<CallbackId> {
    if callbacks == [] then []
    else if callbacks[0].Some? then [callbacks[0].value] + Present(callbacks[1..])
    else Present(callbacks[1..])
  }

  class RefreshBroadcast {
    const mode: Mode
    /** Used by localStorage mode only. */
    const channelName: string
    var channelOpen: bool
    var channelListeners: seq<Option<CallbackId>>
    var posted: seq<Value>
    var storageListener: Option<StorageHandler>
    var windowListeners: seq<StorageHandler>
    /** localStorage: the timestamp last written under each key. */
    var storage: map<string, int>
    var nextSerial: nat

    ghost predicate Valid()
      reads this
    {
      && (mode != BroadcastChannelMode ==> !channelOpen && channelListeners == [] && posted == [])
      && (mode != LocalStorageMode ==> storageListener == None && windowListeners == [])
      && (storageListener.Some? ==> storageListener.value in windowListeners)
      && Distinct(windowListeners)
      && (forall h :: h in windowListeners ==> h.serial < nextSerial)
    }

    constructor (hasBroadcastChannel: bool, hasLocalStorage: bool, name: string, initialStorage: map<string, int>)
      ensures Valid()
      ensures mode == SelectMode(hasBroadcastChannel, hasLocalStorage)
      ensures channelName == name
      ensures channelOpen <==> mode == BroadcastChannelMode
      ensures channelListeners == [] && posted == [] && windowListeners == []
      ensures storageListener == None && storage == initialStorage && nextSerial == 0
    {
      mode := SelectMode(hasBroadcastChannel, hasLocalStorage);
      channelName := name;
      channelOpen := hasBroadcastChannel;
      channelListeners := [];
      posted := [];
      storageListener := None;
      windowListeners := [];
      storage := initialStorage;
      nextSerial := 0;
    }

    /** `broadcast()`: posts `'refresh'`, or writes the current time under
        the channel name (a failing write is caught and changes nothing),
        or does nothing in no-op mode.  Posting on a closed channel throws
        (HTML Living Standard, "Broadcasting to other browsing contexts"). */
    method Broadcast(now: int, writeFails: bool) returns (threw: bool)
      requires Valid()
      modifies this`posted, this`storage
      ensures Valid()
      ensures threw <==> mode == BroadcastChannelMode && !channelOpen
      ensures posted == if mode == BroadcastChannelMode && channelOpen
                        then old(posted) + [RefreshMessage] else old(posted)
      ensures storage == if mode == LocalStorageMode && !writeFails
                         then old(storage)[channelName := now] else old(storage)
    {
      threw := false;
      if mode == BroadcastChannelMode {
        if channelOpen {
          posted := posted + [RefreshMessage];
        } else {
          threw := true;
        }
      } else if mode == LocalStorageMode {
        if !writeFails {
          storage := storage[channelName := now];
        }
      }
    }

    /** `onRefresh(callback)`: adds a channel filter, or replaces
        `storageListener` with a new window listener (the previous one stays
        registered), or does nothing in no-op mode. */
    method OnRefresh(callback: Option<CallbackId>)
      requires Valid()
      modifies this`channelListeners, this`storageListener, this`windowListeners, this`nextSerial
      ensures Valid()
      ensures channelListeners == if mode == BroadcastChannelMode
                                  then old(channelListeners) + [callback] else old(channelListeners)
      ensures mode == LocalStorageMode ==>
        && storageListener == Some(StorageHandler(old(nextSerial), callback))
        && windowListeners == old(windowListeners) + [StorageHandler(old(nextSerial), callback)]
      ensures mode != LocalStorageMode ==>
        storageListener == old(storageListener) && windowListeners == old(windowListeners)
      ensures nextSerial == old(nextSerial) + if mode == LocalStorageMode then 1 else 0
    {
      if mode == BroadcastChannelMode {
        channelListeners := channelListeners + [callback];
      } else if mode == LocalStorageMode {
        var h := StorageHandler(nextSerial, callback);
        nextSerial := nextSerial + 1;
        storageListener := Some(h);
        windowListeners := windowListeners + [h];
      }
    }

    /** `close()`: closes the channel, or removes the window listener held
        in `storageListener` and clears the field; with the field already
        clear it changes nothing. */
    method Close()
      requires Valid()
      modifies this`channelOpen, this`storageListener, this`windowListeners
      ensures Valid()
      ensures !channelOpen && storageListener == None
      ensures windowListeners == if old(storageListener).Some?
                                 then RemoveAll(old(windowListeners), {old(storageListener).value})
                                 else old(windowListeners)
    {
      if mode == BroadcastChannelMode {
        channelOpen := false;
      } else if mode == LocalStorageMode && storageListener.Some? {
        windowListeners := RemoveAll(windowListeners, {storageListener.value});
        storageListener := None;
      }
    }
  }

  /** In no-op mode nothing is posted, stored or registered. */
  method NoopDoesNothing(now: int, callback: Option<CallbackId>, initialStorage: map<string, int>)
    returns (posted: seq<Value>, stored: map<string, int>, listening: nat)
    ensures posted == [] && stored == initialStorage && listening == 0
  {
    var b := new RefreshBroadcast(false, false, DefaultChannelName, initialStorage);
    var _ := b.Broadcast(now, false);
    b.OnRefresh(callback);
    posted := b.posted;
    stored := b.storage;
    listening := |b.channelListeners| + |b.windowListeners|;
  }

  /** In localStorage mode a second `close` finds the field clear and
      leaves the registered listeners as the first one left them. */
  method CloseTwice(name: string, callback: CallbackId)
    returns (afterFirst: seq<StorageHandler>, afterSecond: seq<StorageHandler>)
    ensures afterFirst == [] && afterSecond == afterFirst
  {
    var b := new RefreshBroadcast(false, true, name, map[]);
    b.OnRefresh(Some(callback));
    var h := StorageHandler(0, Some(callback));
    assert b.windowListeners == [h];
    assert RemoveAll([h], {h}) == RemoveAll([], {h});
    b.Close();
    afterFirst := b.windowListeners;
    b.Close();
    afterSecond := b.windowListeners;
  }

  /** A second `onRefresh` overwrites `storageListener`, so `close` removes
      only the newer window listener: the first one stays registered, and
      the next refresh written under the channel name still runs the first
      callback.  A `storage` event never fires in the tab that wrote the
      value, so the write here stands for the same write made in another
      tab. */
  method CloseLeaksEarlierListener(name: string, first: CallbackId, second: CallbackId, now: int)
    returns (left: seq<StorageHandler>, ran: seq<CallbackId>)
    ensures left == [StorageHandler(0, Some(first))]
    ensures ran == [first]
  {
    var b := new RefreshBroadcast(false, true, name, map[]);
    var h0, h1 := StorageHandler(0, Some(first)), StorageHandler(1, Some(second));
    b.OnRefresh(Some(first));
    assert b.windowListeners == [h0];
    b.OnRefresh(Some(second));
    assert b.windowListeners == [h0] + [h1];
    assert [h0] + [h1] + [] == [h0] + [h1];
    RemoveOnly([h0], h1, []);
    b.Close();
    left := b.windowListeners;
    var _ := b.Broadcast(now, false);
    ran := StorageRuns(left, name, Some(name));
  }
}

=== FILE: seqs.dfy ===
/** Sequence helpers shared by the registries.

    The source keeps several JavaScript `Set`s and iterates them with
    `forEach`, which visits members in insertion order.  Such a set is
    modelled as a sequence without duplicates; `Array.prototype.filter` and
    `Set.prototype.delete` both become `RemoveAll`. */
module Seqs {

  /** No element occurs twice. */
  ghost predicate Distinct<T>(s: seq<T>) {
    forall i, j | 0 <= i < j < |s| :: s[i] != s[j]
  }

  /** `Set.prototype.add`: a member already present keeps its place, a new
      one goes to the end. */
  function Add<T(==,!new)>(s: seq<T>, x: T): (r: seq<T>)
    ensures forall y :: y in r <==> y in s || y == x
    ensures |s| <= |r| <= |s| + 1 && r[..|s|] == s
    ensures x in s ==> r == s
    ensures Distinct(s) ==> Distinct(r)
  {
    if x in s then s else s + [x]
  }

  /** The elements of `s` that are not in `gone`, in their original order. */
  function RemoveAll<T(==,!new)>(s: seq<T>, gone: set<T>): (r: seq<T>)
    ensures forall y :: y in r <==> y in s && y !in gone
    ensures |r| <= |s|
    ensures Distinct(s) ==> Distinct(r)
  {
    if s == [] then []
    else if s[0] in gone then RemoveAll(s[1..], gone)
    else [s[0]] + RemoveAll(s[1..], gone)
  }

  /** How many positions of `s` hold a member of `gone`. */
  function CountIn<T(==,!new)>(s: seq<T>, gone: set<T>): (n: nat)
    ensures n <= |s|
    ensures n == 0 <==> forall y :: y in s ==> y !in gone
  {
    if s == [] then 0
    else (if s[0] in gone then 1 else 0) + CountIn(s[1..], gone)
  }

  /** Filtering keeps the order: it distributes over concatenation. */
  lemma {:induction false} RemoveAllAppend<T(!new)>(s: seq<T>, t: seq<T>, gone: set<T>)
    ensures RemoveAll(s + t, gone) == RemoveAll(s, gone) + RemoveAll(t, gone)
  {
    if s == [] {
      assert s + t == t;
    } else {
      assert (s + t)[1..] == s[1..] + t;
      RemoveAllAppend(s[1..], t, gone);
      if s[0] !in gone {
        AppendAssoc([s[0]], RemoveAll(s[1..], gone), RemoveAll(t, gone));
      }
    }
  }

  /** Removing nothing changes nothing. */
  lemma {:induction false} RemoveNothing<T(!new)>(s: seq<T>, gone: set<T>)
    requires forall y :: y in s ==> y !in gone
    ensures RemoveAll(s, gone) == s
  {
    if s != [] {
      RemoveNothing(s[1..], gone);
    }
  }

  /** Two filters in a row are one filter by the union. */
  lemma {:induction false} RemoveAllTwice<T(!new)>(s: seq<T>, a: set<T>, b: set<T>)
    ensures RemoveAll(RemoveAll(s, a), b) == RemoveAll(s, a + b)
  {
    if s != [] {
      RemoveAllTwice(s[1..], a, b);
      if s[0] !in a {
        var rest := RemoveAll(s[1..], a);
        assert ([s[0]] + rest)[1..] == rest;
      }
    }
  }

  /** Filtering drops exactly the positions that hold a member of `gone`. */
  lemma {:induction false} RemoveAllLength<T(!new)>(s: seq<T>, gone: set<T>)
    ensures |RemoveAll(s, gone)| == |s| - CountIn(s, gone)
  {
    if s != [] {
      RemoveAllLength(s[1..], gone);
    }
  }

  /** In a duplicate-free sequence that meets `gone` in exactly one element,
      exactly one position is dropped. */
  lemma {:induction false} CountInSingle<T(!new)>(s: seq<T>, gone: set<T>, x: T)
    requires Distinct(s) && x in s && x in gone
    requires forall y :: y in s && y in gone ==> y == x
    ensures CountIn(s, gone) == 1
  {
    if s[0] == x {
      assert forall y :: y in s[1..] ==> y != x;
      assert CountIn(s[1..], gone) == 0;
    } else {
      CountInSingle(s[1..], gone, x);
    }
  }

  /** The members of a duplicate-free sequence are as many as its length
      (the `size` of the set it lists). */
  lemma {:induction false} DistinctCardinality<T>(s: seq<T>)
    requires Distinct(s)
    ensures |set x | x in s| == |s|
  {
    if s != [] {
      DistinctCardinality(s[1..]);
      var rest := set x | x in s[1..];
      assert (set x | x in s) == rest + {s[0]};
      assert s[0] !in rest;
    }
  }

  /** Deleting `x` from a sequence where it occurs once, between `kept` and
      `rest`, closes the gap. */
  lemma {:induction false} RemoveOnly<T(!new)>(kept: seq<T>, x: T, rest: seq<T>)
    requires x !in kept && x !in rest
    ensures RemoveAll(kept + [x] + rest, {x}) == kept + rest
  {
    if kept == [] {
      assert kept + [x] + rest == [x] + rest;
      assert ([x] + rest)[1..] == rest;
      RemoveNothing(rest, {x});
    } else {
      assert (kept + [x] + rest)[1..] == kept[1..] + [x] + rest;
      RemoveOnly(kept[1..], x, rest);
      assert kept + rest == [kept[0]] + (kept[1..] + rest);
    }
  }

  /** In a sequence without duplicates, the element at `i` occurs neither
      before nor after position `i`. */
  lemma DistinctSplit<T>(s: seq<T>, i: nat)
    requires Distinct(s) && i < |s|
    ensures s[i] !in s[..i] && s[i] !in s[i + 1..]
  {
  }

  /** Deleting one position from a duplicate-free sequence leaves it
      duplicate-free and adds no element. */
  lemma DistinctDelete<T>(kept: seq<T>, x: T, rest: seq<T>)
    requires Distinct(kept + [x] + rest)
    ensures Distinct(kept + rest)
    ensures forall y :: y in kept + rest ==> y in kept + [x] + rest
  {
    var s := kept + [x] + rest;
    var t := kept + rest;
    forall i, j | 0 <= i < j < |t|
      ensures t[i] != t[j]
    {
      var i' := if i < |kept| then i else i + 1;
      var j' := if j < |kept| then j else j + 1;
      assert t[i] == s[i'] && t[j] == s[j'];
    }
  }

  /** Moving the first element still to visit onto the visited part. */
  lemma ShiftFirst<T>(done: seq<T>, todo: seq<T>)
    requires todo != []
    ensures done + todo == (done + [todo[0]]) + todo[1..]
  {
    assert todo == [todo[0]] + todo[1..];
  }

  /** Deleting the position just after `kept` leaves `kept + rest`. */
  lemma DeleteAt<T>(kept: seq<T>, x: T, rest: seq<T>)
    ensures (kept + [x] + rest)[..|kept|] + (kept + [x] + rest)[|kept| + 1..] == kept + rest
  {
    var s := kept + [x] + rest;
    assert s[..|kept|] == kept;
    assert s[|kept| + 1..] == rest;
  }

  lemma AppendAssoc<T>(a: seq<T>, b: seq<T>, c: seq<T>)
    ensures (a + b) + c == a + (b + c)
  {
  }
}

=== FILE: tab_manager.dfy ===
/** The tab-presence registry (src/utils/tab-manager.js): every tab
    announces itself on a shared channel, remembers when it last heard from
    each other tab, and forgets tabs that stay silent longer than the TTL. */
module TabPresence {
  import opened JsValues
  import opened Seqs

  /** The constructor's default channel name. */
  const DefaultChannelName := "version-watcher-tabs"
  /** Silence, in milliseconds, after which a tab is forgotten. */
  const InactiveTtl := 10000

  /** A message this tab posts on the channel. */
  datatype Outgoing = Presence(tabId: string, timestamp: int) | Leave(tabId: string)

  /** The `type` and `tabId` of a message another context posted. */
  datatype Incoming = Incoming(kind: string, tabId: string)

  /** The ids last heard from more than the TTL before `now`. */
  function StaleIds(seen: map<string, int>, now: int): (r: set<string>)
    ensures r <= seen.Keys
    ensures forall id :: id in seen ==> (id in r <==> now - seen[id] > InactiveTtl)
  {
    set id | id in seen && now - seen[id] > InactiveTtl
  }

  /** The entries a sweep at `now` keeps. */
  function Survivors(seen: map<string, int>, now: int): (r: map<string, int>)
    ensures r.Keys == seen.Keys - StaleIds(seen, now)
    ensures forall id :: id in r ==> r[id] == seen[id] && now - r[id] <= InactiveTtl
  {
    map id | id in seen && now - seen[id] <= InactiveTtl :: seen[id]
  }

  /** When exactly one known tab has gone stale, a sweep lowers the count by
      exactly one. */
  lemma {:induction false} SweepDropsOne(tabs: seq<string>, seen: map<string, int>, now: int, peer: string)
    requires Distinct(tabs) && peer in tabs && peer in seen && now - seen[peer] > InactiveTtl
    requires forall id :: id in tabs && id != peer ==> id !in StaleIds(seen, now)
    ensures |RemoveAll(tabs, StaleIds(seen, now))| == |tabs| - 1
  {
    RemoveAllLength(tabs, StaleIds(seen, now));
    CountInSingle(tabs, StaleIds(seen, now), peer);
  }

  /** Mid-sweep: the stale ids already visited (those not in `todo`). */
  function Visited(seen: map<string, int>, now: int, todo: set<string>): set<string> {
    StaleIds(seen, now) - todo
  }

  /** Mid-sweep: the entries not yet visited, and the fresh ones. */
  function Swept(seen: map<string, int>, now: int, todo: set<string>): map<string, int> {
    map id | id in seen && (id in todo || now - seen[id] <= InactiveTtl) :: seen[id]
  }

  lemma SweptNone(seen: map<string, int>, now: int)
    ensures Swept(seen, now, seen.Keys) == seen
  {
  }

  lemma SweptAll(seen: map<string, int>, now: int)
    ensures Swept(seen, now, {}) == Survivors(seen, now)
    ensures Visited(seen, now, {}) == StaleIds(seen, now)
  {
  }

  /** Visiting `id` removes it from both tables exactly when it is stale. */
  lemma SweepStep(seen: map<string, int>, now: int, todo: set<string>, id: string)
    requires id in todo && todo <= seen.Keys
    ensures now - seen[id] > InactiveTtl ==>
      Swept(seen, now, todo) - {id} == Swept(seen, now, todo - {id}) &&
      Visited(seen, now, todo) + {id} == Visited(seen, now, todo - {id})
    ensures now - seen[id] <= InactiveTtl ==>
      Swept(seen, now, todo) == Swept(seen, now, todo - {id}) &&
      Visited(seen, now, todo) == Visited(seen, now, todo - {id})
  {
  }

  class TabManager {
    const tabId: string
    const channelName: string
    /** The other tabs known to be open, in insertion order. */
    var tabs: seq<string>
    /** When each other tab was last heard from; `null` until the first
        message. */
    var lastSeen: Option<map<string, int>>
    /** Every message posted on the channel, in order. */
    var sent: seq<Outgoing>
    var heartbeatRunning: bool
    /** The channel has been closed; posting on it then throws
        `InvalidStateError` and nothing more is delivered to it (HTML
        Living Standard, "Broadcasting to other browsing contexts"). */
    var closed: bool

    /** The own id is never listed; every listed tab has a last-seen time;
        the heartbeat never outlives the channel. */
    ghost predicate Valid()
      reads this
    {
      && Distinct(tabs)
      && tabId !in tabs
      && (forall id :: id in tabs ==> lastSeen.Some? && id in lastSeen.value)
      && (lastSeen.Some? ==> tabId !in lastSeen.value)
      && (closed ==> !heartbeatRunning)
    }

    /** The set of other tabs. */
    ghost function Peers(): set<string>
      reads this
    {
      set id | id in tabs
    }

    /** Construction announces presence once and starts the heartbeat; the
        random id and the clock are parameters. */
    constructor (id: string, name: string, now: int)
      ensures Valid()
      ensures tabId == id && channelName == name
      ensures tabs == [] && lastSeen == None
      ensures sent == [Presence(id, now)]
      ensures heartbeatRunning && !closed
    {
      tabId := id;
      channelName := name;
      tabs := [];
      lastSeen := None;
      sent := [Presence(id, now)];
      heartbeatRunning := true;
      closed := false;
    }

    /** `_broadcastPresence`: posts `presence`, or throws once the channel
        is closed. */
    method BroadcastPresence(now: int) returns (threw: bool)
      modifies this`sent
      ensures threw <==> closed
      ensures sent == old(sent) + (if closed then [] else [Presence(tabId, now)])
    {
      threw := closed;
      if !closed {
        sent := sent + [Presence(tabId, now)];
      }
    }

    /** `_broadcastLeave`: posts `leave`, or throws once the channel is
        closed. */
    method BroadcastLeave() returns (threw: bool)
      modifies this`sent
      ensures threw <==> closed
      ensures sent == old(sent) + (if closed then [] else [Leave(tabId)])
    {
      threw := closed;
      if !closed {
        sent := sent + [Leave(tabId)];
      }
    }

    /** `_handleMessage`: an own message is ignored; any other one, whatever
        its type, refreshes the sender's last-seen time; `presence` adds the
        sender, `leave` removes it, `sync_request` is answered with
        `presence`.  A closed channel receives nothing. */
    method HandleMessage(msg: Incoming, now: int)
      requires Valid()
      modifies this`tabs, this`lastSeen, this`sent
      ensures Valid()
      ensures closed || msg.tabId == tabId ==>
        tabs == old(tabs) && lastSeen == old(lastSeen) && sent == old(sent)
      ensures !closed && msg.tabId != tabId ==>
        && lastSeen.Some?
        && lastSeen.value == (if old(lastSeen).Some? then old(lastSeen).value else map[])[msg.tabId := now]
        && tabs == (if msg.kind == "presence" then Add(old(tabs), msg.tabId)
                    else if msg.kind == "leave" then RemoveAll(old(tabs), {msg.tabId})
                    else old(tabs))
        && sent == old(sent) + (if msg.kind == "sync_request" then [Presence(tabId, now)] else [])
    {
      if closed || msg.tabId == tabId {
        return;
      }
      var seen := if lastSeen.Some? then lastSeen.value else map[];
      lastSeen := Some(seen[msg.tabId := now]);
      if msg.kind == "presence" {
        if msg.tabId != tabId {
          tabs := Add(tabs, msg.tabId);
        }
      } else if msg.kind == "leave" {
        tabs := RemoveAll(tabs, {msg.tabId});
      } else if msg.kind == "sync_request" {
        var _ := BroadcastPresence(now);
      }
    }

    /** `_cleanInactiveTabs`: forgets, in both tables, exactly the tabs
        silent for longer than the TTL; before the first message it does
        nothing. */
    method CleanInactiveTabs(now: int)
      requires Valid()
      modifies this`tabs, this`lastSeen
      ensures Valid()
      ensures old(lastSeen).None? ==> tabs == old(tabs) && lastSeen == old(lastSeen)
      ensures old(lastSeen).Some? ==>
        && lastSeen == Some(Survivors(old(lastSeen).value, now))
        && tabs == RemoveAll(old(tabs), StaleIds(old(lastSeen).value, now))
    {
      if lastSeen.None? {
        return;
      }
      var seen := lastSeen.value;
      var todo := seen.Keys;
      RemoveNothing(tabs, Visited(seen, now, todo));
      SweptNone(seen, now);
      while todo != {}
        invariant todo <= seen.Keys
        invariant lastSeen == Some(Swept(seen, now, todo))
        invariant tabs == RemoveAll(old(tabs), Visited(seen, now, todo))
        decreases todo
      {
        var id :| id in todo;
        SweepStep(seen, now, todo, id);
        if now - seen[id] > InactiveTtl {
          RemoveAllTwice(old(tabs), Visited(seen, now, todo), {id});
          tabs := RemoveAll(tabs, {id});
          lastSeen := Some(lastSeen.value - {id});
        }
        todo := todo - {id};
      }
      SweptAll(seen, now);
    }

    /** One heartbeat: announce, then sweep.  The heartbeat runs only while
        the channel is open, so the announcement never throws. */
    method Heartbeat(now: int)
      requires Valid()
      modifies this`tabs, this`lastSeen, this`sent
      ensures Valid()
      ensures heartbeatRunning ==> sent == old(sent) + [Presence(tabId, now)]
      ensures heartbeatRunning && old(lastSeen).Some? ==>
        && lastSeen == Some(Survivors(old(lastSeen).value, now))
        && tabs == RemoveAll(old(tabs), StaleIds(old(lastSeen).value, now))
      ensures !heartbeatRunning || old(lastSeen).None? ==>
        tabs == old(tabs) && lastSeen == old(lastSeen)
      ensures !heartbeatRunning ==> sent == old(sent)
    {
      if heartbeatRunning {
        var _ := BroadcastPresence(now);
        CleanInactiveTabs(now);
      }
    }

    /** The page becomes visible or hidden; only visible announces.  The
        listener outlives `destroy`, and then the announcement throws. */
    method OnVisibilityChange(hidden: bool, now: int) returns (threw: bool)
      modifies this`sent
      ensures threw <==> !hidden && closed
      ensures sent == old(sent) + (if hidden || closed then [] else [Presence(tabId, now)])
    {
      threw := false;
      if !hidden {
        threw := BroadcastPresence(now);
      }
    }

    /** The page unloads: a courtesy `leave`, which throws after `destroy`. */
    method OnUnload() returns (threw: bool)
      modifies this`sent
      ensures threw <==> closed
      ensures sent == old(sent) + (if closed then [] else [Leave(tabId)])
    {
      threw := BroadcastLeave();
    }

    /** The other tabs plus this one: at least one. */
    method GetTabCount() returns (n: nat)
      requires Valid()
      ensures n == |Peers()| + 1
      ensures n >= 1
    {
      DistinctCardinality(tabs);
      n := |tabs| + 1;
    }

    /** The other tabs in insertion order, then this one: as many ids as
        `GetTabCount` counts, none twice. */
    method GetTabIds() returns (ids: seq<string>)
      requires Valid()
      ensures ids == tabs + [tabId]
      ensures |ids| == |Peers()| + 1
      ensures Distinct(ids) && tabId in ids
    {
      DistinctCardinality(tabs);
      ids := tabs + [tabId];
    }

    /** Stops the heartbeat, says `leave` and closes the channel.  A second
        `destroy` throws at the `leave`, before reaching `close`. */
    method Destroy() returns (threw: bool)
      requires Valid()
      modifies this`heartbeatRunning, this`sent, this`closed
      ensures Valid()
      ensures !heartbeatRunning && closed
      ensures threw <==> old(closed)
      ensures sent == old(sent) + (if old(closed) then [] else [Leave(tabId)])
    {
      heartbeatRunning := false;
      threw := BroadcastLeave();
      if !threw {
        closed := true;
      }
    }
  }

  /** After `destroy` the visibility and unload listeners are still
      registered, so a visible page, an unload and a second `destroy` each
      throw, and nothing more is posted. */
  method DestroyThenEventsThrow(id: string, now: int, later: int)
    returns (visible: bool, unload: bool, again: bool, sent: seq<Outgoing>)
    ensures visible && unload && again
    ensures sent == [Presence(id, now), Leave(id)]
  {
    var t := new TabManager(id, DefaultChannelName, now);
    var _ := t.Destroy();
    visible := t.OnVisibilityChange(false, later);
    unload := t.OnUnload();
    again := t.Destroy();
    sent := t.sent;
  }
}

=== FILE: transport.dfy ===
/** Backend selection and window `storage` listeners, shared by the two
    broadcast adapters. */
module Transport {
  import opened JsValues

  datatype Mode = BroadcastChannelMode | LocalStorageMode | NoopMode

  /** Chosen once at construction: a native BroadcastChannel if the host has
      one, else localStorage if it has that, else a no-op. */
  function SelectMode(hasBroadcastChannel: bool, hasLocalStorage: bool): (m: Mode)
    ensures m == BroadcastChannelMode <==> hasBroadcastChannel
    ensures m == LocalStorageMode <==> !hasBroadcastChannel && hasLocalStorage
    ensures m == NoopMode <==> !hasBroadcastChannel && !hasLocalStorage
  {
    if hasBroadcastChannel then BroadcastChannelMode
    else if hasLocalStorage then LocalStorageMode
    else NoopMode
  }

  /** The closure an adapter adds as a window `storage` listener; each
      subscription makes a new one. */
  datatype StorageHandler = StorageHandler(serial: nat, callback: Option<CallbackId>)

  /** The callback each window listener was made with, in order. */
  function Callbacks(handlers: seq<StorageHandler>): (r: seq<Option<CallbackId>>)
    ensures |r| == |handlers|
    ensures forall i :: 0 <= i < |r| ==> r[i] == handlers[i].callback
  {
    if handlers == [] then [] else [handlers[0].callback] + Callbacks(handlers[1..])
  }
}

=== FILE: version_broadcast.dfy ===
/** Cross-tab version announcements (src/utils/version-broadcast.js): one
    tab broadcasts the version it found, the others hear it through a
    BroadcastChannel or, failing that, through localStorage `storage`
    events. */
module VersionSync {
  import opened JsValues
  import opened Seqs
  import opened Transport

  /** The constructor's default channel name. */
  const DefaultChannelName: string := "version-sync"
  /** The `type` tag of a channel message. */
  const MessageType: string := "version-sync"

  /** What a channel `broadcast(version)` posts. */
  function ChannelMessage(version: Value): (m: Value)
    ensures m.Obj? && m.fields.Keys == {"type", "version"}
  {
    Obj(map["type" := Str(MessageType), "version" := version])
  }

  /** The filter `onVersionSync` installs on the channel: truthy data whose
      `type` is the message type hands its `version` to the callback;
      anything else is ignored. */
  function AcceptChannel(data: Value): (r: Option<Value>)
    ensures r.Some? <==> Truthy(data) && Prop(data, "type") == Str(MessageType)
    ensures r.Some? ==> r.value == Prop(data, "version")
  {
    if Truthy(data) && Prop(data, "type") == Str(MessageType) then Some(Prop(data, "version")) else None
  }

  /** What a channel broadcast posts, the channel filter accepts, with the
      same version. */
  lemma ChannelRoundTrip(version: Value)
    ensures AcceptChannel(ChannelMessage(version)) == Some(version)
  {
    assert Prop(ChannelMessage(version), "type") == Str(MessageType);
  }

  /** Data carrying another `type`, or none, is never delivered. */
  lemma ChannelIgnoresOthers(fields: map<string, Value>)
    requires "type" !in fields || fields["type"] != Str(MessageType)
    ensures AcceptChannel(Obj(fields)) == None
  {
  }

  /** What a localStorage `broadcast(version)` writes under the channel
      name, as `JSON.parse` gives it back. */
  function StoredValue(timestamp: int, version: Value): (v: Value)
    ensures v.Obj? && v.fields.Keys == {"timestamp", "version"}
  {
    Obj(map["timestamp" := Num(timestamp), "version" := version])
  }

  /** `handleStorageEvent`: an event for another key is ignored; for the
      channel key the new value is parsed (`None` when `JSON.parse` throws,
      which is caught) and a truthy result with a truthy `version` hands
      that version to the callback. */
  function HandleStorage(channelName: string, key: Option<string>, parsed: Option<Value>): (r: Option<Value>)
    ensures r.Some? <==>
      && key == Some(channelName)
      && parsed.Some? && Truthy(parsed.value) && Truthy(Prop(parsed.value, "version"))
    ensures r.Some? ==> r.value == Prop(parsed.value, "version") && Truthy(r.value)
  {
    if key != Some(channelName) then None
    else match parsed
      case None => None
      case Some(data) => if Truthy(data) && Truthy(Prop(data, "version")) then Some(Prop(data, "version")) else None
  }

  /** What a localStorage broadcast writes, the storage handler delivers,
      provided the version is truthy. */
  lemma StorageRoundTrip(channelName: string, timestamp: int, version: Value)
    ensures HandleStorage(channelName, Some(channelName), Some(StoredValue(timestamp, version)))
         == if Truthy(version) then Some(version) else None
  {
    assert Prop(StoredValue(timestamp, version), "version") == version;
  }

  /** A new value that does not parse never reaches the callback. */
  lemma UnparseableIgnored(channelName: string, key: Option<string>)
    ensures HandleStorage(channelName, key, None) == None
  {
  }

  /** A callback run with a version. */
  datatype Delivery = Delivery(callback: CallbackId, version: Value)

  /** What the window's `storage` listeners do with one event, in
      registration order: each handler whose check passes and whose
      callback is present runs it. */
  function StorageDeliveries(handlers: seq<StorageHandler>, channelName: string, key: Option<string>, parsed: Option<Value>): (r: seq<Delivery>)
    ensures |r| <= |handlers|
    ensures HandleStorage(channelName, key, parsed).None? ==> r == []
    ensures forall d :: d in r ==> Some(d.version) == HandleStorage(channelName, key, parsed)
  {
    if handlers == [] then []
    else
      var rest := StorageDeliveries(handlers[1..], channelName, key, parsed);
      match (handlers[0].callback, HandleStorage(channelName, key, parsed))
      case (Some(cb), Some(v)) => [Delivery(cb, v)] + rest
      case _ => rest
  }

  /** An accepted `storage` event reaches every window listener that has a
      callback, in registration order, each with the accepted version; a
      rejected one reaches none. */
  lemma {:induction false} StorageReachesListeners(handlers: seq<StorageHandler>, channelName: string, key: Option<string>, parsed: Option<Value>)
    ensures StorageDeliveries(handlers, channelName, key, parsed)
         == match HandleStorage(channelName, key, parsed)
            case Some(v) => Heard(Callbacks(handlers), v)
            case None => []
  {
    if handlers != [] {
      StorageReachesListeners(handlers[1..], channelName, key, parsed);
      assert Callbacks(handlers)[1..] == Callbacks(handlers[1..]);
    }
  }

  /** What the channel filters do with one incoming message, in
      registration order. */
  function ChannelDeliveries(callbacks: seq<Option<CallbackId>>, data: Value): (r: seq<Delivery>)
    ensures |r| <= |callbacks|
    ensures AcceptChannel(data).None? ==> r == []
    ensures forall d :: d in r ==> Some(d.version) == AcceptChannel(data)
  {
    if callbacks == [] then []
    else
      var rest := ChannelDeliveries(callbacks[1..], data);
      match (callbacks[0], AcceptChannel(data))
      case (Some(cb), Some(v)) => [Delivery(cb, v)] + rest
      case _ => rest
  }

  /** Every present callback, handed `version`. */
  function Heard(callbacks: seq<Option<CallbackId>>, version: Value): seq<Delivery> {
    if callbacks == [] then []
    else if callbacks[0].Some? then [Delivery(callbacks[0].value, version)] + Heard(callbacks[1..], version)
    else Heard(callbacks[1..], version)
  }

  /** A broadcast message reaches every listening tab's callbacks, each
      with the broadcast version. */
  lemma {:induction false} BroadcastReachesListeners(callbacks: seq<Option<CallbackId>>, version: Value)
    ensures ChannelDeliveries(callbacks, ChannelMessage(version)) == Heard(callbacks, version)
  {
    if callbacks != [] {
      ChannelRoundTrip(version);
      BroadcastReachesListeners(callbacks[1..], version);
    }
  }

  class VersionBroadcast {
    const mode: Mode
    /** Used by localStorage mode only. */
    const channelName: string
    /** The BroadcastChannel is open (channel mode). */
    var channelOpen: bool
    /** The callbacks behind the filters added to the channel, in order. */
    var channelListeners: seq<Option<CallbackId>>
    /** Every message posted on the channel. */
    var posted: seq<Value>
    /** `this.storageListener`. */
    var storageListener: Option<StorageHandler>
    /** The window's `storage` listeners added by this object. */
    var windowListeners: seq<StorageHandler>
    /** localStorage, as `JSON.parse` reads it back. */
    var storage: map<string, Value>
    var nextSerial: nat

    ghost predicate Valid()
      reads this
    {
      && (mode != BroadcastChannelMode ==> !channelOpen && channelListeners == [] && posted == [])
      && (mode != LocalStorageMode ==> storageListener == None && windowListeners == [])
      && (storageListener.Some? ==> storageListener.value in windowListeners)
      && Distinct(windowListeners)
      && (forall h :: h in windowListeners ==> h.serial < nextSerial)
    }

    /** The constructor picks the transport once; only channel mode opens a
        channel. */
    constructor (hasBroadcastChannel: bool, hasLocalStorage: bool, name: string, initialStorage: map<string, Value>)
      ensures Valid()
      ensures mode == SelectMode(hasBroadcastChannel, hasLocalStorage)
      ensures channelName == name
      ensures channelOpen <==> mode == BroadcastChannelMode
      ensures channelListeners == [] && posted == [] && windowListeners == []
      ensures storageListener == None && storage == initialStorage && nextSerial == 0
    {
      mode := SelectMode(hasBroadcastChannel, hasLocalStorage);
      channelName := name;
      channelOpen := hasBroadcastChannel;
      channelListeners := [];
      posted := [];
      storageListener := None;
      windowListeners := [];
      storage := initialStorage;
      nextSerial := 0;
    }

    /** `broadcast(version)`: posts the message on the channel, or writes
        the stored value under the channel name (a failing write is caught
        and changes nothing), or does nothing in no-op mode.  Posting on a
        channel that `destroy` closed throws (HTML Living Standard,
        "Broadcasting to other browsing contexts"), which is reported as `threw`. */
    method Broadcast(version: Value, now: int, writeFails: bool) returns (threw: bool)
      requires Valid()
      modifies this`posted, this`storage
      ensures Valid()
      ensures threw <==> mode == BroadcastChannelMode && !channelOpen
      ensures posted == if mode == BroadcastChannelMode && channelOpen
                        then old(posted) + [ChannelMessage(version)] else old(posted)
      ensures storage == if mode == LocalStorageMode && !writeFails
                         then old(storage)[channelName := StoredValue(now, version)] else old(storage)
    {
      threw := false;
      if mode == BroadcastChannelMode {
        if channelOpen {
          posted := posted + [ChannelMessage(version)];
        } else {
          threw := true;
        }
      } else if mode == LocalStorageMode {
        if !writeFails {
          storage := storage[channelName := StoredValue(now, version)];
        }
      }
    }

    /** `onVersionSync(callback)`: adds a channel filter, or replaces
        `storageListener` with a new window listener (the previous one
        stays registered), or does nothing in no-op mode. */
    method OnVersionSync(callback: Option<CallbackId>)
      requires Valid()
      modifies this`channelListeners, this`storageListener, this`windowListeners, this`nextSerial
      ensures Valid()
      ensures channelListeners == if mode == BroadcastChannelMode
                                  then old(channelListeners) + [callback] else old(channelListeners)
      ensures mode == LocalStorageMode ==>
        && storageListener == Some(StorageHandler(old(nextSerial), callback))
        && windowListeners == old(windowListeners) + [StorageHandler(old(nextSerial), callback)]
      ensures mode != LocalStorageMode ==>
        storageListener == old(storageListener) && windowListeners == old(windowListeners)
      ensures nextSerial == old(nextSerial) + if mode == LocalStorageMode then 1 else 0
    {
      if mode == BroadcastChannelMode {
        channelListeners := channelListeners + [callback];
      } else if mode == LocalStorageMode {
        var h := StorageHandler(nextSerial, callback);
        nextSerial := nextSerial + 1;
        storageListener := Some(h);
        windowListeners := windowListeners + [h];
      }
    }

    /** `destroy()`: closes the channel, or removes the one window listener
        `storageListener` holds and clears the field. */
    method Destroy()
      requires Valid()
      modifies this`channelOpen, this`storageListener, this`windowListeners
      ensures Valid()
      ensures !channelOpen && storageListener == None
      ensures windowListeners == if old(storageListener).Some?
                                 then RemoveAll(old(windowListeners), {old(storageListener).value})
                                 else old(windowListeners)
    {
      if mode == BroadcastChannelMode {
        channelOpen := false;
      } else if mode == LocalStorageMode && storageListener.Some? {
        windowListeners := RemoveAll(windowListeners, {storageListener.value});
        storageListener := None;
      }
    }
  }

  /** In no-op mode nothing is posted, stored or registered. */
  method NoopDoesNothing(version: Value, now: int, callback: Option<CallbackId>, initialStorage: map<string, Value>)
    returns (posted: seq<Value>, stored: map<string, Value>, listening: nat)
    ensures posted == [] && stored == initialStorage && listening == 0
  {
    var b := new VersionBroadcast(false, false, DefaultChannelName, initialStorage);
    var _ := b.Broadcast(version, now, false);
    b.OnVersionSync(callback);
    posted := b.posted;
    stored := b.storage;
    listening := |b.channelListeners| + |b.windowListeners|;
  }

  /** In localStorage mode, two `onVersionSync` calls and a `destroy` leave
      the first window listener registered, and it still delivers.  A
      `storage` event never fires in the tab that wrote the value, so the
      write here stands for the same write made in another tab. */
  method DestroyLeaksEarlierListener(name: string, first: CallbackId, second: CallbackId, now: int, version: Value)
    returns (left: seq<StorageHandler>, heard: seq<Delivery>)
    requires Truthy(version)
    ensures left == [StorageHandler(0, Some(first))]
    ensures heard == [Delivery(first, version)]
  {
    var b := new VersionBroadcast(false, true, name, map[]);
    var h0, h1 := StorageHandler(0, Some(first)), StorageHandler(1, Some(second));
    b.OnVersionSync(Some(first));
    assert b.windowListeners == [h0];
    b.OnVersionSync(Some(second));
    assert b.windowListeners == [h0] + [h1];
    assert [h0] + [h1] + [] == [h0] + [h1];
    RemoveOnly([h0], h1, []);
    b.Destroy();
    left := b.windowListeners;
    var _ := b.Broadcast(version, now, false);
    StorageRoundTrip(name, now, version);
    heard := StorageDeliveries(left, name, Some(name), Some(b.storage[name]));
  }
}

=== FILE: version_watcher.dfy ===
/** The version-change detector that runs on the main thread: the class
    `VersionWatcher` of src/core/version-watcher.js.  The wrapper falls back
    to it when no worker is available. */
module Watcher {
  import opened JsValues
  import opened Seqs

  const DefaultEndpoint := "/dist/version.json"
  const DefaultInterval := 5 * 60 * 1000
  const DefaultContent := "为了更好的版本体验请更新到最新版本"

  /** The methods a `VersionWatcher` object answers to. */
  const MethodNames: set<string> :=
    {"initialize", "listenPageVisible", "listenJSError", "checkVersion",
     "notifyListeners", "start", "stop", "onUpdate"}

  function Defaults(): Options {
    map["endpoint" := Str(DefaultEndpoint),
        "interval" := Num(DefaultInterval),
        "content" := Str(DefaultContent)]
  }

  /** The constructor's options: the defaults, overridden key by key by the
      caller's. */
  function MergedOptions(user: Options): (r: Options)
    ensures forall k :: k in user ==> k in r && r[k] == user[k]
    ensures forall k :: k in r && k !in user ==> k in Defaults() && r[k] == Defaults()[k]
    ensures "endpoint" in r && "interval" in r && "content" in r
  {
    Spread(Defaults(), user)
  }

  /** The event listeners receive, `{newVersion, ...options}`: every option
      is copied, and an option named `newVersion` hides the new version. */
  function ChangeEvent(newVersion: Value, options: Options): (e: Options)
    ensures e.Keys == options.Keys + {"newVersion"}
    ensures forall k :: k in options ==> e[k] == options[k]
    ensures "newVersion" !in options ==> e["newVersion"] == newVersion
  {
    Spread(map["newVersion" := newVersion], options)
  }

  /** One invocation `callback(event, isTip)`. */
  datatype Call = Call(callback: CallbackId, event: Options, isTip: Value)

  /** What `callbacks.forEach(cb => cb(event, isTip))` does: one call per
      callback, in iteration order, all with the same arguments. */
  function Calls(callbacks: seq<CallbackId>, event: Options, isTip: Value): (r: seq<Call>)
    ensures |r| == |callbacks|
    ensures forall i :: 0 <= i < |r| ==> r[i] == Call(callbacks[i], event, isTip)
  {
    if callbacks == [] then []
    else [Call(callbacks[0], event, isTip)] + Calls(callbacks[1..], event, isTip)
  }

  /** Notifying one more listener appends its call. */
  lemma CallsNext(callbacks: seq<CallbackId>, i: nat, event: Options, isTip: Value)
    requires i < |callbacks|
    ensures Calls(callbacks[..i + 1], event, isTip) == Calls(callbacks[..i], event, isTip) + [Call(callbacks[i], event, isTip)]
  {
    assert callbacks[..i + 1] == callbacks[..i] + [callbacks[i]];
    assert |Calls(callbacks[..i + 1], event, isTip)| == i + 1;
  }

  /** How many of `calls` went to `cb`. */
  function CallsTo(calls: seq<Call>, cb: CallbackId): nat {
    if calls == [] then 0
    else (if calls[0].callback == cb then 1 else 0) + CallsTo(calls[1..], cb)
  }

  /** Notifying a set of listeners calls each member exactly once and nobody
      else. */
  lemma {:induction false} EachListenerOnce(callbacks: seq<CallbackId>, event: Options, isTip: Value, cb: CallbackId)
    requires Distinct(callbacks)
    ensures CallsTo(Calls(callbacks, event, isTip), cb) == if cb in callbacks then 1 else 0
  {
    if callbacks != [] {
      var r := Calls(callbacks, event, isTip);
      assert r[1..] == Calls(callbacks[1..], event, isTip);
      EachListenerOnce(callbacks[1..], event, isTip, cb);
      assert cb in callbacks <==> cb == callbacks[0] || cb in callbacks[1..];
      assert callbacks[0] !in callbacks[1..];
    }
  }

  /** What a check hands to the listeners when it detects a change. */
  datatype Notice = Notice(event: Options, isTip: Value)

  class VersionWatcher {
    var options: Options
    var currentVersion: Value
    /** The interval handle, or `null`. */
    var timer: Option<nat>
    /** The listener set, in insertion order. */
    var listeners: seq<CallbackId>
    /** Intervals the host runs for this object, and the next fresh handle. */
    var running: set<nat>
    var nextHandle: nat
    /** Every listener call made so far. */
    var calls: seq<Call>

    /** At most one interval runs, and it is the one `timer` holds. */
    ghost predicate Valid()
      reads this
    {
      && Distinct(listeners)
      && running == (if timer.Some? then {timer.value} else {})
      && forall h :: h in running ==> h < nextHandle
    }

    constructor (user: Options)
      ensures Valid()
      ensures options == MergedOptions(user)
      ensures currentVersion == Null && timer == None && listeners == []
      ensures running == {} && calls == []
    {
      options := MergedOptions(user);
      currentVersion := Null;
      timer := None;
      listeners := [];
      running := {};
      nextHandle := 0;
      calls := [];
    }

    /** Clears the interval if there is one; a second call does nothing. */
    method Stop()
      requires Valid()
      modifies this
      ensures Valid()
      ensures timer == None && running == {}
      ensures nextHandle == old(nextHandle)
      ensures options == old(options) && currentVersion == old(currentVersion)
      ensures listeners == old(listeners) && calls == old(calls)
    {
      if timer.Some? {
        running := running - {timer.value};
        timer := None;
      }
    }

    /** Stops first, then starts one fresh interval. */
    method Start()
      requires Valid()
      modifies this
      ensures Valid()
      ensures timer.Some? && running == {timer.value} && timer.value !in old(running)
      ensures options == old(options) && currentVersion == old(currentVersion)
      ensures listeners == old(listeners) && calls == old(calls)
    {
      Stop();
      var h := nextHandle;
      nextHandle := nextHandle + 1;
      running := running + {h};
      timer := Some(h);
    }

    /** A truthy `isTip` stops polling; every listener is called once with
        `{newVersion, ...options}`; then the new version is held. */
    method NotifyListeners(newVersion: Value, isTip: Value) returns (notice: Notice)
      requires Valid()
      modifies this
      ensures Valid()
      ensures notice == Notice(ChangeEvent(newVersion, options), isTip)
      ensures calls == old(calls) + Calls(listeners, notice.event, isTip)
      ensures currentVersion == newVersion
      ensures Truthy(isTip) ==> timer == None && running == {}
      ensures !Truthy(isTip) ==> timer == old(timer) && running == old(running)
      ensures options == old(options) && listeners == old(listeners)
    {
      if Truthy(isTip) {
        Stop();
      }
      var event := ChangeEvent(newVersion, options);
      notice := Notice(event, isTip);
      var i := 0;
      while i < |listeners|
        invariant 0 <= i <= |listeners|
        invariant calls == old(calls) + Calls(listeners[..i], event, isTip)
        modifies this`calls
      {
        CallsNext(listeners, i, event, isTip);
        AppendAssoc(old(calls), Calls(listeners[..i], event, isTip), [Call(listeners[i], event, isTip)]);
        calls := calls + [Call(listeners[i], event, isTip)];
        i := i + 1;
      }
      assert listeners[..i] == listeners;
      currentVersion := newVersion;
    }

    /** One completed check: a failure changes nothing; the first version
        seen is adopted silently; a different version is announced and
        adopted; the same version changes nothing. */
    method CheckVersion(fetched: Fetch) returns (fired: Option<Notice>)
      requires Valid()
      modifies this
      ensures Valid()
      ensures fired.Some? <==>
        fetched.Fetched? && Truthy(old(currentVersion)) && fetched.version != old(currentVersion)
      ensures currentVersion == if fetched.Fetched? then fetched.version else old(currentVersion)
      ensures fired.None? ==>
        calls == old(calls) && timer == old(timer) && running == old(running)
      ensures fired.Some? ==>
        && fired.value == Notice(ChangeEvent(fetched.version, options), fetched.isTip)
        && calls == old(calls) + Calls(listeners, fired.value.event, fetched.isTip)
        && (Truthy(fetched.isTip) ==> timer == None && running == {})
        && (!Truthy(fetched.isTip) ==> timer == old(timer) && running == old(running))
      ensures options == old(options) && listeners == old(listeners)
    {
      fired := None;
      if fetched.Failed? {
        return;
      }
      if !Truthy(currentVersion) {
        currentVersion := fetched.version;
        return;
      }
      if fetched.version != currentVersion {
        var notice := NotifyListeners(fetched.version, fetched.isTip);
        fired := Some(notice);
      }
    }

    /** `initialize`: one check, then polling starts.  The page-visibility
        and script-error subscriptions it also makes are not modelled. */
    method Initialize(fetched: Fetch) returns (fired: Option<Notice>)
      requires Valid()
      modifies this
      ensures Valid()
      ensures timer.Some? && running == {timer.value}
      ensures currentVersion == if fetched.Fetched? then fetched.version else old(currentVersion)
      ensures fired.Some? <==>
        fetched.Fetched? && Truthy(old(currentVersion)) && fetched.version != old(currentVersion)
      ensures fired.None? ==> calls == old(calls)
      ensures fired.Some? ==>
        && fired.value == Notice(ChangeEvent(fetched.version, options), fetched.isTip)
        && calls == old(calls) + Calls(listeners, fired.value.event, fetched.isTip)
      ensures options == old(options) && listeners == old(listeners)
    {
      fired := CheckVersion(fetched);
      Start();
    }

    /** A hidden page stops polling; a visible one checks and restarts. */
    method ListenPageVisible(hidden: bool, fetched: Fetch) returns (fired: Option<Notice>)
      requires Valid()
      modifies this
      ensures Valid()
      ensures hidden ==>
        (fired.None? && timer == None && running == {} &&
         currentVersion == old(currentVersion) && calls == old(calls))
      ensures !hidden ==>
        (timer.Some? && running == {timer.value} &&
         currentVersion == (if fetched.Fetched? then fetched.version else old(currentVersion)))
      ensures !hidden ==>
        (fired.Some? <==>
          fetched.Fetched? && Truthy(old(currentVersion)) && fetched.version != old(currentVersion))
      ensures !hidden && fired.None? ==> calls == old(calls)
      ensures fired.Some? ==>
        && fired.value == Notice(ChangeEvent(fetched.version, options), fetched.isTip)
        && calls == old(calls) + Calls(listeners, fired.value.event, fetched.isTip)
      ensures options == old(options) && listeners == old(listeners)
    {
      if hidden {
        Stop();
        fired := None;
      } else {
        fired := CheckVersion(fetched);
        Start();
      }
    }

    /** Adds to the listener set; adding a member again is a no-op. */
    method OnUpdate(cb: CallbackId)
      requires Valid()
      modifies this`listeners
      ensures Valid()
      ensures listeners == Add(old(listeners), cb)
    {
      listeners := Add(listeners, cb);
    }

    /** The remover `onUpdate` returns: deletes exactly that callback and
        reports whether it was there. */
    method RemoveListener(cb: CallbackId) returns (removed: bool)
      requires Valid()
      modifies this`listeners
      ensures Valid()
      ensures removed <==> cb in old(listeners)
      ensures listeners == RemoveAll(old(listeners), {cb})
    {
      removed := cb in listeners;
      listeners := RemoveAll(listeners, {cb});
    }
  }
}

=== FILE: version_watcher_worker.dfy ===
/** The detector as it runs inside the worker script
    (src/core/version-watcher.worker.js): module-level `timer`,
    `currentVersion` and `options`, a message handler for the commands the
    main thread posts, and the stream of messages the worker posts back. */
module WatcherWorker {
  import opened JsValues

  const InitText := "Worker initialized successfully!"
  const UnknownErrorText := "未知错误"
  const UnhandledRejectionText := "未处理的 Promise 错误"

  function Defaults(): Options {
    map["endpoint" := Str("/dist/version.json"),
        "interval" := Num(5 * 60 * 1000),
        "disabled" := Bool(false),
        "isListenJSError" := Bool(false),
        "polling" := Bool(true)]
  }

  /** A command `{type, data}` from the main thread. */
  datatype Command =
    | Start(data: Options)
    | Stop
    | CheckNow
    | SyncVersion(version: Value)
    | Unknown(kind: string)

  /** A message the worker posts to the main thread. */
  datatype Outgoing =
    | Init(text: string)
    | Started(polling: Value)
    | Stopped
    | VersionChanged(newVersion: Value, currentVersion: Value, isTip: Value)
    | Error(message: Value)

  /** The `data` object of a `version-changed` message as the receiver
      reads it. */
  function ChangedData(m: Outgoing): (data: Options)
    requires m.VersionChanged?
    ensures data.Keys == {"newVersion", "currentVersion", "isTip"}
    ensures "version" !in data
  {
    map["newVersion" := m.newVersion, "currentVersion" := m.currentVersion, "isTip" := m.isTip]
  }

  /** The `message` of an error report: the host's text if truthy, else the
      given fallback text. */
  function ErrorText(message: Value, fallback: string): (r: Value)
    ensures fallback != "" ==> Truthy(r)
    ensures Truthy(message) ==> r == message
    ensures !Truthy(message) ==> r == Str(fallback)
  {
    if Truthy(message) then message else Str(fallback)
  }

  /** The worker's global scope. */
  class WorkerScope {
    /** The interval object, or `null`. */
    var timer: Option<nat>
    var currentVersion: Value
    var options: Options
    /** Every message posted to the main thread, in order. */
    var outbox: seq<Outgoing>
    /** Intervals the host runs for this scope, and the next fresh handle. */
    var running: set<nat>
    var nextHandle: nat
    /** How many `checkVersion()` calls have been started; each one's fetch
        completes later as one `CheckCompleted` step. */
    var checksIssued: nat

    /** At most one interval runs, and it is the one `timer` holds. */
    ghost predicate Valid()
      reads this
    {
      && running == (if timer.Some? then {timer.value} else {})
      && forall h :: h in running ==> h < nextHandle
    }

    /** Loading the script posts `init` at once. */
    constructor ()
      ensures Valid()
      ensures outbox == [Init(InitText)]
      ensures options == Defaults() && currentVersion == Null
      ensures timer == None && running == {} && checksIssued == 0
    {
      timer := None;
      currentVersion := Null;
      options := Defaults();
      outbox := [Init(InitText)];
      running := {};
      nextHandle := 0;
      checksIssued := 0;
    }

    /** Stops the interval and reports `stopped`, but only if there was one;
        a second call posts nothing. */
    method StopChecking()
      requires Valid()
      modifies this
      ensures Valid()
      ensures timer == None && running == {}
      ensures outbox == old(outbox) + (if old(timer).Some? then [Stopped] else [])
      ensures currentVersion == old(currentVersion) && options == old(options)
      ensures checksIssued == old(checksIssued) && nextHandle == old(nextHandle)
    {
      if timer.Some? {
        running := running - {timer.value};
        timer := None;
        outbox := outbox + [Stopped];
      }
    }

    /** Stops first, starts one immediate check, creates an interval only
        when `options.polling` is truthy, and reports `started` with that
        flag. */
    method StartChecking()
      requires Valid()
      modifies this
      ensures Valid()
      ensures checksIssued == old(checksIssued) + 1
      ensures timer.Some? <==> Truthy(Lookup(options, "polling"))
      ensures timer.Some? ==> timer.value !in old(running)
      ensures outbox == old(outbox) + (if old(timer).Some? then [Stopped] else [])
                        + [Started(Lookup(options, "polling"))]
      ensures currentVersion == old(currentVersion) && options == old(options)
    {
      StopChecking();
      checksIssued := checksIssued + 1;
      if Truthy(Lookup(options, "polling")) {
        var h := nextHandle;
        nextHandle := nextHandle + 1;
        running := running + {h};
        timer := Some(h);
      }
      outbox := outbox + [Started(Lookup(options, "polling"))];
    }

    /** The interval `h` fires: a live interval starts a check, a cleared
        one does nothing. */
    method Tick(h: nat)
      requires Valid()
      modifies this`checksIssued
      ensures Valid()
      ensures checksIssued == old(checksIssued) + (if h in running then 1 else 0)
    {
      if h in running {
        checksIssued := checksIssued + 1;
      }
    }

    /** A started check completes.  A failure changes nothing; the first
        version is adopted without a message; a different version is posted
        as `version-changed` with the previous one, adopted, and, when
        `isTip` is truthy, followed by stopping. */
    method CheckCompleted(fetched: Fetch)
      requires Valid()
      modifies this
      ensures Valid()
      ensures currentVersion == if fetched.Fetched? then fetched.version else old(currentVersion)
      ensures !(fetched.Fetched? && Truthy(old(currentVersion)) && fetched.version != old(currentVersion)) ==>
        outbox == old(outbox) && timer == old(timer) && running == old(running)
      ensures fetched.Fetched? && Truthy(old(currentVersion)) && fetched.version != old(currentVersion) ==>
        && outbox == old(outbox)
             + [VersionChanged(fetched.version, old(currentVersion), fetched.isTip)]
             + (if Truthy(fetched.isTip) && old(timer).Some? then [Stopped] else [])
        && (Truthy(fetched.isTip) ==> timer == None && running == {})
        && (!Truthy(fetched.isTip) ==> timer == old(timer) && running == old(running))
      ensures options == old(options) && checksIssued == old(checksIssued)
    {
      if fetched.Failed? {
        return;
      }
      if !Truthy(currentVersion) {
        currentVersion := fetched.version;
        return;
      }
      if fetched.version != currentVersion {
        outbox := outbox + [VersionChanged(fetched.version, currentVersion, fetched.isTip)];
        currentVersion := fetched.version;
        if Truthy(fetched.isTip) {
          StopChecking();
        }
      }
    }

    /** `self.onmessage`: dispatch on the command type. */
    method OnMessage(cmd: Command)
      requires Valid()
      modifies this
      ensures Valid()
      ensures cmd.Start? ==>
        && options == Spread(old(options), cmd.data)
        && checksIssued == old(checksIssued) + 1
        && (timer.Some? <==> Truthy(Lookup(options, "polling")))
        && outbox == old(outbox) + (if old(timer).Some? then [Stopped] else [])
                     + [Started(Lookup(options, "polling"))]
        && currentVersion == old(currentVersion)
      ensures cmd.Stop? ==>
        && timer == None && running == {}
        && outbox == old(outbox) + (if old(timer).Some? then [Stopped] else [])
        && currentVersion == old(currentVersion) && options == old(options)
        && checksIssued == old(checksIssued)
      ensures cmd.CheckNow? ==>
        && checksIssued == old(checksIssued) + 1
        && outbox == old(outbox) && timer == old(timer) && running == old(running)
        && currentVersion == old(currentVersion) && options == old(options)
      ensures cmd.SyncVersion? ==>
        && currentVersion == cmd.version
        && outbox == old(outbox) && timer == old(timer) && running == old(running)
        && options == old(options) && checksIssued == old(checksIssued)
      ensures cmd.Unknown? ==>
        && currentVersion == old(currentVersion) && options == old(options)
        && outbox == old(outbox) && timer == old(timer) && running == old(running)
        && checksIssued == old(checksIssued)
    {
      match cmd
      case Start(data) =>
        options := Spread(options, data);
        StartChecking();
      case Stop =>
        StopChecking();
      case CheckNow =>
        checksIssued := checksIssued + 1;
      case SyncVersion(v) =>
        currentVersion := v;
      case Unknown(_) =>
    }

    /** `self.onerror`: reports the error to the main thread. */
    method OnError(message: Value)
      modifies this`outbox
      ensures outbox == old(outbox) + [Error(ErrorText(message, UnknownErrorText))]
    {
      outbox := outbox + [Error(ErrorText(message, UnknownErrorText))];
    }

    /** `self.onunhandledrejection`: reports the rejection reason. */
    method OnUnhandledRejection(message: Value)
      modifies this`outbox
      ensures outbox == old(outbox) + [Error(ErrorText(message, UnhandledRejectionText))]
    {
      outbox := outbox + [Error(ErrorText(message, UnhandledRejectionText))];
    }
  }

  /** After `syncVersion(v)`, a check that fetches `v` posts nothing: the
      other tab's accepted version is not announced again. */
  method SyncThenSameVersion(w: WorkerScope, v: Value, isTip: Value)
    requires w.Valid()
    modifies w
    ensures w.Valid()
    ensures w.outbox == old(w.outbox) && w.currentVersion == v
    ensures w.timer == old(w.timer)
  {
    w.OnMessage(SyncVersion(v));
    w.CheckCompleted(Fetched(v, isTip));
  }
}

=== FILE: version_watcher_wrapper.dfy ===
/** The facade that picks a mode (src/core/version-watcher-wrapper.js): it
    drives the worker script by posting commands and, once downgraded, a
    main-thread `VersionWatcher`, and fans version changes out to the
    application's callbacks. */
module WatcherWrapper {
  import opened JsValues
  import opened Seqs
  import Watcher
  import WatcherWorker

  datatype Mode = WorkerMode | FallbackMode

  function Defaults(): Options {
    map["endpoint" := Str(Watcher.DefaultEndpoint),
        "interval" := Num(Watcher.DefaultInterval),
        "content" := Str(Watcher.DefaultContent),
        "disabled" := Bool(false),
        "isListenJSError" := Bool(false)]
  }

  /** The constructor's options: user options override the five defaults. */
  function WrapperOptions(user: Options): (r: Options)
    ensures r.Keys == Defaults().Keys + user.Keys
    ensures forall k :: k in user ==> r[k] == user[k]
    ensures forall k :: k in Defaults() && k !in user ==> r[k] == Defaults()[k]
  {
    Spread(Defaults(), user)
  }

  /** A fallback watcher built from the wrapper's options ends up with
      exactly those options: its own defaults are all already present. */
  lemma FallbackKeepsOptions(user: Options)
    ensures Watcher.MergedOptions(WrapperOptions(user)) == WrapperOptions(user)
  {
    var o := WrapperOptions(user);
    var m := Watcher.MergedOptions(o);
    assert Watcher.Defaults().Keys <= Defaults().Keys;
    assert m.Keys == o.Keys;
    forall k | k in m
      ensures m[k] == o[k]
    {
    }
  }

  /** The options the `start` command carries leave the worker polling
      unless the application turned polling off itself. */
  lemma WorkerPollsByDefault(user: Options)
    requires "polling" !in user
    ensures Lookup(Spread(WatcherWorker.Defaults(), WrapperOptions(user)), "polling") == Bool(true)
  {
    assert "polling" !in WrapperOptions(user);
  }

  /** Where `checkNow`, `stop` and `destroy` go. */
  datatype Route = ToWorker | ToFallback | Nowhere

  function RouteFor(mode: Mode, hasWorker: bool, hasFallback: bool): (r: Route)
    ensures r == ToWorker <==> mode == WorkerMode && hasWorker
    ensures r == ToFallback <==> mode == FallbackMode && hasFallback
  {
    if mode == WorkerMode && hasWorker then ToWorker
    else if mode == FallbackMode && hasFallback then ToFallback
    else Nowhere
  }

  /** Whether a synchronous call returned or threw. */
  datatype Outcome = Done | TypeError(message: string)

  /** Calling one of the method names the model knows on a `VersionWatcher`:
      a name the class does not declare is `undefined` on it, and calling
      that throws.  Names inherited from `Object.prototype` are not in
      question here. */
  function CallOnWatcher(name: string): (r: Outcome)
    ensures r == Done <==> name in Watcher.MethodNames
  {
    if name in Watcher.MethodNames then Done
    else TypeError("this.fallbackWatcher." + name + " is not a function")
  }

  /** The method `checkNow` calls on the fallback watcher, as written. */
  const CheckNowCallsAsWritten := "checkNow"
  /** The method that does what `checkNow` asks for. */
  const CheckNowCallsCorrected := "checkVersion"

  /** As written, `checkNow` in fallback mode throws. */
  lemma CheckNowThrowsInFallback()
    ensures CallOnWatcher(CheckNowCallsAsWritten).TypeError?
  {
  }

  /** Corrected, it runs a check. */
  lemma CheckNowCorrectedChecks()
    ensures CallOnWatcher(CheckNowCallsCorrected) == Done
  {
  }

  /** `_handleVersionChanged(data)` as written builds
      `{newVersion: data.version, ...options}`. */
  function WorkerEvent(data: Options, options: Options): (e: Options)
    ensures "newVersion" in e
    ensures "newVersion" !in options ==> e["newVersion"] == Lookup(data, "version")
    ensures forall k :: k in options ==> k in e && e[k] == options[k]
  {
    Watcher.ChangeEvent(Lookup(data, "version"), options)
  }

  /** The worker names the field `newVersion`, so, unless an option is
      itself called `newVersion`, every event from the worker carries an
      undefined new version. */
  lemma WorkerEventLosesVersion(m: WatcherWorker.Outgoing, options: Options)
    requires m.VersionChanged? && "newVersion" !in options
    ensures WorkerEvent(WatcherWorker.ChangedData(m), options)["newVersion"] == Undefined
  {
    assert Lookup(WatcherWorker.ChangedData(m), "version") == Undefined;
  }

  /** The intended reading: the field the worker actually posts. */
  function WorkerEventCorrected(data: Options, options: Options): (e: Options)
    ensures "newVersion" in e
    ensures "newVersion" !in options ==> e["newVersion"] == Lookup(data, "newVersion")
    ensures forall k :: k in options ==> k in e && e[k] == options[k]
  {
    Watcher.ChangeEvent(Lookup(data, "newVersion"), options)
  }

  /** With the corrected reading both modes hand callbacks the same event
      for the same change. */
  lemma ModeAgnosticEvent(user: Options, v: Value, previous: Value, isTip: Value)
    ensures WorkerEventCorrected(WatcherWorker.ChangedData(WatcherWorker.VersionChanged(v, previous, isTip)), WrapperOptions(user))
         == Watcher.ChangeEvent(v, Watcher.MergedOptions(WrapperOptions(user)))
  {
    FallbackKeepsOptions(user);
  }

  /** The closure the wrapper registers on its fallback watcher. */
  const Forwarder: CallbackId := 0

  class VersionWatcherWrapper {
    var options: Options
    var mode: Mode
    /** `this.worker` is set. */
    var worker: bool
    var workerTerminated: bool
    /** Commands posted to the worker, in order. */
    var posted: seq<WatcherWorker.Command>
    var fallbackWatcher: Watcher.VersionWatcher?
    /** Loads of the fallback watcher started and not yet settled. */
    var pendingLoads: nat
    /** The callback set, in insertion order. */
    var callbacks: seq<CallbackId>
    /** Every callback invocation so far. */
    var deliveries: seq<Watcher.Call>
    /** Whether the constructor subscribed to page visibility. */
    var listensVisibility: bool
    /** The loaded fallback watcher whose `initialize()` still awaits its
        first fetch.  This is the pending promise, not a field of the
        wrapper: `destroy` does not cancel it. */
    var initializing: Watcher.VersionWatcher?

    /** In worker mode no fallback exists or is loading; a fallback watcher,
        initialized or not, has the forwarder as its only listener. */
    ghost predicate Valid()
      reads this, fallbackWatcher, initializing
    {
      && Distinct(callbacks)
      && (fallbackWatcher != null ==>
            fallbackWatcher.Valid() && fallbackWatcher.listeners == [Forwarder])
      && (initializing != null ==>
            initializing.Valid() && initializing.listeners == [Forwarder])
      && (mode == WorkerMode ==> fallbackWatcher == null && initializing == null && pendingLoads == 0)
    }

    /** Worker mode when the host has workers, else fallback mode with the
        fallback watcher still loading. */
    constructor (user: Options, workerAvailable: bool)
      ensures Valid()
      ensures options == WrapperOptions(user)
      ensures mode == (if workerAvailable then WorkerMode else FallbackMode)
      ensures worker == workerAvailable && !workerTerminated && posted == []
      ensures fallbackWatcher == null && initializing == null
      ensures pendingLoads == (if workerAvailable then 0 else 1)
      ensures callbacks == [] && deliveries == []
      ensures listensVisibility == workerAvailable
    {
      options := WrapperOptions(user);
      callbacks := [];
      deliveries := [];
      workerTerminated := false;
      posted := [];
      fallbackWatcher := null;
      initializing := null;
      if workerAvailable {
        mode := WorkerMode;
        worker := true;
        pendingLoads := 0;
      } else {
        worker := false;
        mode := FallbackMode;
        pendingLoads := 1;
      }
      // the fallback watcher is still loading here, so only a worker
      // leads to the visibility subscription
      listensVisibility := workerAvailable;
    }

    /** `worker.onerror`: a one-way downgrade that starts loading the
        fallback watcher.  The worker itself is neither terminated nor
        dropped. */
    method OnWorkerError()
      requires Valid()
      modifies this`mode, this`pendingLoads
      ensures Valid()
      ensures old(worker) ==> mode == FallbackMode && pendingLoads == old(pendingLoads) + 1
      ensures !old(worker) ==> mode == old(mode) && pendingLoads == old(pendingLoads)
      ensures worker == old(worker) && posted == old(posted)
      ensures fallbackWatcher == old(fallbackWatcher) && initializing == old(initializing)
      ensures callbacks == old(callbacks) && deliveries == old(deliveries)
    {
      if worker {
        mode := FallbackMode;
        pendingLoads := pendingLoads + 1;
      }
    }

    /** A load of the fallback watcher succeeds: a new watcher with the
        wrapper's options becomes `fallbackWatcher`, its `initialize()`
        issues the first fetch and returns at the first `await`, and the
        forwarder is registered.  No timer runs yet. */
    method OnFallbackLoaded()
      requires Valid()
      modifies this`pendingLoads, this`fallbackWatcher, this`initializing
      ensures Valid()
      ensures old(pendingLoads) > 0 ==>
        && pendingLoads == old(pendingLoads) - 1
        && fallbackWatcher != null && fresh(fallbackWatcher)
        && initializing == fallbackWatcher
        && fallbackWatcher.options == Watcher.MergedOptions(options)
        && fallbackWatcher.timer == None
        && fallbackWatcher.currentVersion == Null
        && fallbackWatcher.calls == []
      ensures old(pendingLoads) == 0 ==>
        pendingLoads == 0 && fallbackWatcher == old(fallbackWatcher) && initializing == old(initializing)
      ensures mode == old(mode) && worker == old(worker) && posted == old(posted)
      ensures callbacks == old(callbacks) && deliveries == old(deliveries)
    {
      if pendingLoads > 0 {
        pendingLoads := pendingLoads - 1;
        var w := new Watcher.VersionWatcher(options);
        w.OnUpdate(Forwarder);
        fallbackWatcher := w;
        initializing := w;
      }
    }

    /** The first fetch of a loaded watcher's `initialize()` settles: that
        watcher checks, then starts its interval, whether or not `destroy`
        has dropped it meanwhile.  A change it announces reaches the
        callbacks through the forwarder. */
    method OnFallbackInitialized(fetched: Fetch)
      requires Valid()
      modifies this`initializing, this`deliveries, initializing
      ensures Valid()
      ensures initializing == null
      ensures old(initializing) != null ==>
        && old(initializing).timer.Some?
        && old(initializing).running == {old(initializing).timer.value}
        && old(initializing).currentVersion
             == (if fetched.Fetched? then fetched.version else old(initializing.currentVersion))
        && old(initializing).options == old(initializing.options)
        && old(initializing).listeners == old(initializing.listeners)
      ensures old(initializing) != null && fetched.Fetched?
              && Truthy(old(initializing.currentVersion))
              && fetched.version != old(initializing.currentVersion) ==>
        old(initializing).calls == old(initializing.calls)
          + Watcher.Calls([Forwarder], Watcher.ChangeEvent(fetched.version, old(initializing.options)), fetched.isTip)
      ensures old(initializing) != null && !(fetched.Fetched?
              && Truthy(old(initializing.currentVersion))
              && fetched.version != old(initializing.currentVersion)) ==>
        old(initializing).calls == old(initializing.calls)
      ensures old(initializing) != null && fetched.Fetched?
              && Truthy(old(initializing.currentVersion))
              && fetched.version != old(initializing.currentVersion) ==>
        deliveries == old(deliveries)
          + Watcher.Calls(callbacks, Watcher.ChangeEvent(fetched.version, old(initializing).options), fetched.isTip)
      ensures !(old(initializing) != null && fetched.Fetched?
                && Truthy(old(initializing.currentVersion))
                && fetched.version != old(initializing.currentVersion)) ==>
        deliveries == old(deliveries)
      ensures fallbackWatcher == old(fallbackWatcher)
      ensures mode == old(mode) && worker == old(worker) && posted == old(posted)
      ensures callbacks == old(callbacks) && pendingLoads == old(pendingLoads)
    {
      if initializing != null {
        var w := initializing;
        var fired := w.Initialize(fetched);
        initializing := null;
        if fired.Some? {
          FanOut(fired.value.event, fired.value.isTip);
        }
      }
    }

    /** A load of the fallback watcher fails; the error is only logged. */
    method OnFallbackLoadFailed()
      requires Valid()
      modifies this`pendingLoads
      ensures Valid()
      ensures pendingLoads == if old(pendingLoads) > 0 then old(pendingLoads) - 1 else 0
    {
      if pendingLoads > 0 {
        pendingLoads := pendingLoads - 1;
      }
    }

    /** `callbacks.forEach(cb => cb(event, isTip))`. */
    method FanOut(event: Options, isTip: Value)
      modifies this`deliveries
      ensures deliveries == old(deliveries) + Watcher.Calls(callbacks, event, isTip)
    {
      var i := 0;
      while i < |callbacks|
        invariant 0 <= i <= |callbacks|
        invariant deliveries == old(deliveries) + Watcher.Calls(callbacks[..i], event, isTip)
      {
        Watcher.CallsNext(callbacks, i, event, isTip);
        AppendAssoc(old(deliveries), Watcher.Calls(callbacks[..i], event, isTip),
                    [Watcher.Call(callbacks[i], event, isTip)]);
        deliveries := deliveries + [Watcher.Call(callbacks[i], event, isTip)];
        i := i + 1;
      }
      assert callbacks[..i] == callbacks;
    }

    /** `_handleVersionChanged`, as written: the new version is read from
        `data.version`. */
    method HandleVersionChanged(data: Options)
      modifies this`deliveries
      ensures deliveries == old(deliveries)
        + Watcher.Calls(callbacks, WorkerEvent(data, options), Lookup(data, "isTip"))
    {
      FanOut(WorkerEvent(data, options), Lookup(data, "isTip"));
    }

    /** `worker.onmessage`: only `version-changed` reaches the callbacks,
        whatever the mode. */
    method OnWorkerMessage(msg: WatcherWorker.Outgoing)
      modifies this`deliveries
      ensures worker && msg.VersionChanged? ==>
        deliveries == old(deliveries)
          + Watcher.Calls(callbacks, WorkerEvent(WatcherWorker.ChangedData(msg), options), msg.isTip)
      ensures !(worker && msg.VersionChanged?) ==> deliveries == old(deliveries)
    {
      if worker && msg.VersionChanged? {
        HandleVersionChanged(WatcherWorker.ChangedData(msg));
      }
    }

    /** A check of the fallback watcher completes; a change it announces to
        the forwarder reaches every callback. */
    method OnFallbackCheck(fetched: Fetch)
      requires Valid()
      modifies this`deliveries, fallbackWatcher
      ensures Valid()
      ensures fallbackWatcher == old(fallbackWatcher)
      ensures fallbackWatcher != null ==>
        && fallbackWatcher.currentVersion
             == (if fetched.Fetched? then fetched.version else old(fallbackWatcher.currentVersion))
        && fallbackWatcher.options == old(fallbackWatcher.options)
        && fallbackWatcher.listeners == old(fallbackWatcher.listeners)
      ensures fallbackWatcher != null && fetched.Fetched?
              && Truthy(old(fallbackWatcher.currentVersion))
              && fetched.version != old(fallbackWatcher.currentVersion) ==>
        && fallbackWatcher.calls == old(fallbackWatcher.calls)
             + Watcher.Calls([Forwarder], Watcher.ChangeEvent(fetched.version, fallbackWatcher.options), fetched.isTip)
        && (Truthy(fetched.isTip) ==> fallbackWatcher.timer == None && fallbackWatcher.running == {})
        && (!Truthy(fetched.isTip) ==>
              fallbackWatcher.timer == old(fallbackWatcher.timer) && fallbackWatcher.running == old(fallbackWatcher.running))
      ensures fallbackWatcher != null && !(fetched.Fetched?
              && Truthy(old(fallbackWatcher.currentVersion))
              && fetched.version != old(fallbackWatcher.currentVersion)) ==>
        && fallbackWatcher.calls == old(fallbackWatcher.calls)
        && fallbackWatcher.timer == old(fallbackWatcher.timer)
        && fallbackWatcher.running == old(fallbackWatcher.running)
      ensures fallbackWatcher != null && fetched.Fetched?
              && Truthy(old(fallbackWatcher.currentVersion))
              && fetched.version != old(fallbackWatcher.currentVersion) ==>
        deliveries == old(deliveries)
          + Watcher.Calls(callbacks, Watcher.ChangeEvent(fetched.version, fallbackWatcher.options), fetched.isTip)
      ensures !(fallbackWatcher != null && fetched.Fetched?
                && Truthy(old(fallbackWatcher.currentVersion))
                && fetched.version != old(fallbackWatcher.currentVersion)) ==>
        deliveries == old(deliveries)
      ensures mode == old(mode) && worker == old(worker) && posted == old(posted)
      ensures callbacks == old(callbacks) && pendingLoads == old(pendingLoads)
      ensures initializing == old(initializing)
    {
      if fallbackWatcher != null {
        var fired := fallbackWatcher.CheckVersion(fetched);
        if fired.Some? {
          FanOut(fired.value.event, fired.value.isTip);
        }
      }
    }

    /** `initialize`: posts `start` with the options, in worker mode only. */
    method Initialize()
      modifies this`posted
      ensures posted == old(posted)
        + (if mode == WorkerMode && worker then [WatcherWorker.Start(options)] else [])
    {
      if mode == WorkerMode && worker {
        posted := posted + [WatcherWorker.Start(options)];
      }
    }

    /** `checkNow`, as written: a command to the worker, or a call of the
        fallback watcher's `checkNow`, which does not exist. */
    method CheckNow() returns (outcome: Outcome)
      modifies this`posted
      ensures RouteFor(mode, worker, fallbackWatcher != null) == ToWorker ==>
        outcome == Done && posted == old(posted) + [WatcherWorker.CheckNow]
      ensures RouteFor(mode, worker, fallbackWatcher != null) == ToFallback ==>
        outcome == CallOnWatcher(CheckNowCallsAsWritten) && posted == old(posted)
      ensures RouteFor(mode, worker, fallbackWatcher != null) == Nowhere ==>
        outcome == Done && posted == old(posted)
    {
      outcome := Done;
      match RouteFor(mode, worker, fallbackWatcher != null)
      case ToWorker =>
        posted := posted + [WatcherWorker.CheckNow];
      case ToFallback =>
        outcome := CallOnWatcher(CheckNowCallsAsWritten);
      case Nowhere =>
    }

    /** `checkNow` as intended: in fallback mode the fallback watcher runs a
        check, and never throws. */
    method CheckNowCorrected(fetched: Fetch)
      requires Valid()
      modifies this`posted, this`deliveries, fallbackWatcher
      ensures Valid()
      ensures mode == old(mode) && fallbackWatcher == old(fallbackWatcher)
      ensures RouteFor(old(mode), old(worker), old(fallbackWatcher) != null) == ToWorker ==>
        posted == old(posted) + [WatcherWorker.CheckNow] && deliveries == old(deliveries)
      ensures RouteFor(old(mode), old(worker), old(fallbackWatcher) != null) == ToFallback ==>
        && posted == old(posted)
        && fallbackWatcher.currentVersion
             == (if fetched.Fetched? then fetched.version else old(fallbackWatcher.currentVersion))
        && fallbackWatcher.options == old(fallbackWatcher.options)
        && fallbackWatcher.listeners == old(fallbackWatcher.listeners)
      ensures RouteFor(old(mode), old(worker), old(fallbackWatcher) != null) == ToFallback
              && fetched.Fetched? && Truthy(old(fallbackWatcher.currentVersion))
              && fetched.version != old(fallbackWatcher.currentVersion) ==>
        && fallbackWatcher.calls == old(fallbackWatcher.calls)
             + Watcher.Calls([Forwarder], Watcher.ChangeEvent(fetched.version, fallbackWatcher.options), fetched.isTip)
        && (Truthy(fetched.isTip) ==> fallbackWatcher.timer == None && fallbackWatcher.running == {})
        && (!Truthy(fetched.isTip) ==>
              fallbackWatcher.timer == old(fallbackWatcher.timer) && fallbackWatcher.running == old(fallbackWatcher.running))
      ensures RouteFor(old(mode), old(worker), old(fallbackWatcher) != null) == ToFallback
              && !(fetched.Fetched? && Truthy(old(fallbackWatcher.currentVersion))
                   && fetched.version != old(fallbackWatcher.currentVersion)) ==>
        && fallbackWatcher.calls == old(fallbackWatcher.calls)
        && fallbackWatcher.timer == old(fallbackWatcher.timer)
        && fallbackWatcher.running == old(fallbackWatcher.running)
      ensures (RouteFor(old(mode), old(worker), old(fallbackWatcher) != null) != ToFallback
               && fallbackWatcher != null) ==> unchanged(fallbackWatcher)
      ensures RouteFor(old(mode), old(worker), old(fallbackWatcher) != null) == ToFallback
              && fetched.Fetched? && Truthy(old(fallbackWatcher.currentVersion))
              && fetched.version != old(fallbackWatcher.currentVersion) ==>
        deliveries == old(deliveries)
          + Watcher.Calls(callbacks, Watcher.ChangeEvent(fetched.version, fallbackWatcher.options), fetched.isTip)
      ensures RouteFor(old(mode), old(worker), old(fallbackWatcher) != null) == ToFallback
              && !(fetched.Fetched? && Truthy(old(fallbackWatcher.currentVersion))
                   && fetched.version != old(fallbackWatcher.currentVersion)) ==>
        deliveries == old(deliveries)
      ensures RouteFor(old(mode), old(worker), old(fallbackWatcher) != null) == Nowhere ==>
        posted == old(posted) && deliveries == old(deliveries)
      ensures callbacks == old(callbacks) && initializing == old(initializing)
    {
      match RouteFor(mode, worker, fallbackWatcher != null)
      case ToWorker =>
        posted := posted + [WatcherWorker.CheckNow];
      case ToFallback =>
        OnFallbackCheck(fetched);
      case Nowhere =>
    }

    /** `stop`: a command to the worker, or the fallback watcher stops. */
    method Stop()
      requires Valid()
      modifies this`posted, fallbackWatcher
      ensures Valid()
      ensures RouteFor(mode, worker, fallbackWatcher != null) == ToWorker ==>
        posted == old(posted) + [WatcherWorker.Stop]
      ensures RouteFor(mode, worker, fallbackWatcher != null) == ToFallback ==>
        && posted == old(posted)
        && fallbackWatcher.timer == None && fallbackWatcher.running == {}
        && fallbackWatcher.currentVersion == old(fallbackWatcher.currentVersion)
        && fallbackWatcher.options == old(fallbackWatcher.options)
        && fallbackWatcher.listeners == old(fallbackWatcher.listeners)
        && fallbackWatcher.calls == old(fallbackWatcher.calls)
      ensures RouteFor(mode, worker, fallbackWatcher != null) == Nowhere ==>
        posted == old(posted)
      ensures (RouteFor(mode, worker, fallbackWatcher != null) != ToFallback
               && fallbackWatcher != null) ==> unchanged(fallbackWatcher)
    {
      match RouteFor(mode, worker, fallbackWatcher != null)
      case ToWorker =>
        posted := posted + [WatcherWorker.Stop];
      case ToFallback =>
        fallbackWatcher.Stop();
      case Nowhere =>
    }

    /** A hidden page stops checking; a visible one checks now. */
    method ListenPageVisible(hidden: bool) returns (outcome: Outcome)
      requires Valid()
      modifies this`posted, fallbackWatcher
      ensures Valid()
      ensures hidden ==> outcome == Done
      ensures hidden && RouteFor(mode, worker, fallbackWatcher != null) == ToWorker ==>
        posted == old(posted) + [WatcherWorker.Stop]
      ensures hidden && RouteFor(mode, worker, fallbackWatcher != null) == ToFallback ==>
        && posted == old(posted)
        && fallbackWatcher.timer == None && fallbackWatcher.running == {}
        && fallbackWatcher.currentVersion == old(fallbackWatcher.currentVersion)
        && fallbackWatcher.options == old(fallbackWatcher.options)
        && fallbackWatcher.listeners == old(fallbackWatcher.listeners)
        && fallbackWatcher.calls == old(fallbackWatcher.calls)
      ensures !hidden && RouteFor(mode, worker, fallbackWatcher != null) == ToWorker ==>
        posted == old(posted) + [WatcherWorker.CheckNow]
      ensures !hidden && RouteFor(mode, worker, fallbackWatcher != null) == ToFallback ==>
        outcome.TypeError? && posted == old(posted)
      ensures RouteFor(mode, worker, fallbackWatcher != null) == Nowhere ==>
        outcome == Done && posted == old(posted)
      ensures !hidden && fallbackWatcher != null ==> unchanged(fallbackWatcher)
    {
      if hidden {
        Stop();
        outcome := Done;
      } else {
        outcome := CheckNow();
      }
    }

    /** Adds a callback; adding it again is a no-op. */
    method OnUpdate(cb: CallbackId)
      requires Valid()
      modifies this`callbacks
      ensures Valid()
      ensures callbacks == Add(old(callbacks), cb)
    {
      callbacks := Add(callbacks, cb);
    }

    /** The remover `onUpdate` returns: deletes exactly that callback. */
    method RemoveCallback(cb: CallbackId)
      requires Valid()
      modifies this`callbacks
      ensures Valid()
      ensures callbacks == RemoveAll(old(callbacks), {cb})
    {
      callbacks := RemoveAll(callbacks, {cb});
    }

    /** Tears down the backend that matches the mode and empties the
        callback set. */
    method Destroy()
      requires Valid()
      modifies this`worker, this`workerTerminated, this`fallbackWatcher, this`callbacks, fallbackWatcher
      ensures Valid()
      ensures callbacks == []
      ensures mode == old(mode)
      ensures RouteFor(old(mode), old(worker), old(fallbackWatcher) != null) == ToWorker ==>
        !worker && workerTerminated && fallbackWatcher == old(fallbackWatcher)
      ensures RouteFor(old(mode), old(worker), old(fallbackWatcher) != null) == ToFallback ==>
        && fallbackWatcher == null
        && old(fallbackWatcher).timer == None && old(fallbackWatcher).running == {}
        && old(fallbackWatcher).currentVersion == old(fallbackWatcher.currentVersion)
        && old(fallbackWatcher).options == old(fallbackWatcher.options)
        && old(fallbackWatcher).listeners == old(fallbackWatcher.listeners)
        && old(fallbackWatcher).calls == old(fallbackWatcher.calls)
        && worker == old(worker) && workerTerminated == old(workerTerminated)
      ensures RouteFor(old(mode), old(worker), old(fallbackWatcher) != null) == Nowhere ==>
        fallbackWatcher == old(fallbackWatcher) && worker == old(worker)
        && workerTerminated == old(workerTerminated)
      ensures posted == old(posted) && deliveries == old(deliveries)
      ensures initializing == old(initializing) && pendingLoads == old(pendingLoads)
    {
      match RouteFor(mode, worker, fallbackWatcher != null) {
        case ToWorker =>
          workerTerminated := true;
          worker := false;
        case ToFallback =>
          fallbackWatcher.Stop();
          fallbackWatcher := null;
        case Nowhere =>
      }
      callbacks := [];
    }
  }

  /** A wrapper that started in worker mode, lost its worker and has a
      fallback watcher past its first fetch. */
  method Downgraded(user: Options, first: Fetch) returns (w: VersionWatcherWrapper)
    ensures fresh(w) && w.Valid()
    ensures w.fallbackWatcher != null && fresh(w.fallbackWatcher)
    ensures w.mode == FallbackMode && w.worker
    ensures w.options == WrapperOptions(user)
    ensures w.fallbackWatcher.options == Watcher.MergedOptions(w.options)
  {
    w := new VersionWatcherWrapper(user, true);
    w.OnWorkerError();
    w.OnFallbackLoaded();
    w.OnFallbackInitialized(first);
  }

  /** A worker error downgrades for good: once the fallback watcher has
      loaded, a visible page or an explicit `checkNow` throws instead of
      checking, and the corrected `checkNow` does check. */
  method DowngradeThenCheckNow(user: Options, first: Fetch, second: Fetch)
    returns (mode: Mode, asWritten: Outcome, corrected: Value)
    requires second.Fetched?
    ensures mode == FallbackMode
    ensures asWritten.TypeError?
    ensures corrected == second.version
  {
    var w := Downgraded(user, first);
    assert RouteFor(w.mode, w.worker, true) == ToFallback;
    mode := w.mode;
    asWritten := w.CheckNow();
    w.CheckNowCorrected(second);
    corrected := w.fallbackWatcher.currentVersion;
  }

  /** After the downgrade the fallback watcher runs with exactly the
      options the application gave the wrapper, defaults included. */
  method DowngradeKeepsOptions(user: Options, first: Fetch) returns (watcherOptions: Options)
    ensures watcherOptions == WrapperOptions(user)
    ensures forall k :: k in user ==> k in watcherOptions && watcherOptions[k] == user[k]
  {
    var w := Downgraded(user, first);
    FallbackKeepsOptions(user);
    watcherOptions := w.fallbackWatcher.options;
  }

  /** `destroy` while the fallback watcher's first fetch is in flight drops
      the watcher, but the pending `initialize()` still starts its interval:
      the dropped watcher keeps polling and the wrapper can no longer stop
      it.  Only the watcher's own visibility listener, which `initialize()`
      adds after its first check, pauses it while the page is hidden. */
  method DestroyDuringFirstFetch(user: Options, fetched: Fetch)
    returns (dropped: bool, polling: bool, delivered: nat)
    ensures dropped && polling && delivered == 0
  {
    var w := new VersionWatcherWrapper(user, false);
    w.OnFallbackLoaded();
    var f := w.fallbackWatcher;
    w.Destroy();
    w.OnFallbackInitialized(fetched);
    dropped := w.fallbackWatcher == null;
    polling := f.timer.Some?;
    delivered := |w.deliveries|;
  }
}
